=== FILE: README.md ===
# ASlider value and geometry model

ASlider is a SwiftUI slider package with linear and radial sliders, track
marks that can grow under a dragged thumb, a tinted track, labels, and
keyboard stepping. This project models the arithmetic behind those views in
Dafny, using exact `real` numbers:

- how a slider value maps to a track position, or to an angle on a radial
  track, and back;
- how a measured frame sets the track buffer, track length, scaling and
  radial radii;
- which values get track marks and labels;
- how a requested value is committed: clamped, remembered as the last
  resting value, and optionally snapped to the nearest mark;
- keyboard steps, including integer rounding;
- the style normalisation of the current helper;
- per-mark highlighting and the cubic that grows marks near the thumb;
- the tint bar's anchor, start and width;
- the even placement of marks by `TrackLayout`;
- the drag, tap and key state of the slider and thumb views.

The repository keeps three revisions of several files side by side, and
they behave differently. Each revision has its own module:

- **Current revision**: `Helpers/`, `1.SliderViews/TrackMarks/`,
  `1.SliderViews/Tint/`, `2.Styling/`, `1.SliderViews/NewSlider.swift` and
  `1.SliderViews/Thumb.swift`. Modules `SliderHelper`, `SliderStyle`,
  `TrackMarks`, `Tint`, `SliderView` and `Thumb`.
- **Earlier revision**: `Styles/`, `1.SliderViews/TrackMarks.swift` and
  `1.SliderViews/Tint.swift`. Modules with the `Legacy` prefix.
- **Earliest revision**: the root `NewSlider.swift`, `Thumb.swift`,
  `TrackMarks.swift` and `Tint.swift`, which read the earliest style record
  (`trackMarkStyle`, `_thumbWidth`). Modules with the `Earliest` prefix.
- Both older revisions run on the root `SliderHelper.swift`, modelled as
  `LegacySliderHelper`.

Shared pieces:

- `Common` holds the range, rounding, the step rule, the highlight ranges
  and the tint bar layout.
- `MarkSequence` holds the arithmetic progression that both helpers produce.
- `MarkGrowth` holds the normalised distance and the growth curve.
- `Indicators` holds the indicator set scans of the earlier style records.

The helper is a mutable object in the source. Here it is an immutable
record, and every mutating call returns the updated record. Angles are in
degrees, with a full turn of 360. The source uses radians; the conversion
factor is a positive constant that cancels in every ratio used.

## Model

| member | source | states |
|---|---|---|
| SliderHelper.Init | Sources/ASlider/Helpers/SliderHelper.swift:55-69 | A helper exists exactly when lowerBound < upperBound. It starts at rest, with the last resting value at the lower bound and the given range, step and integer flag. |
| SliderHelper.UpdateStyle | Sources/ASlider/Helpers/SliderHelper.swift:70-108 | The normalised style has no thumb width without the thumb indicator. A step turns snapping on; on macOS it also forces a 10 pt thumb and marks at every step. Tinted marks make the track a mark tall. A clear track becomes clear-ish and as tall as the tallest (grown) mark, and this rule wins. No other field changes. |
| SliderHelper.UpdateStyleIdempotent | Sources/ASlider/Helpers/SliderHelper.swift:76-107 | Normalising twice equals normalising once, except exactly when a clear track with tinted, dynamically growing marks (growth ≠ 1, height ≠ 0) got its height from the grown mark. The second pass then sets it back to one mark height. |
| SliderHelper.SetTrackSize | Sources/ASlider/Helpers/SliderHelper.swift:110-132 | The centre is the frame's midpoint, and scaling × span = track length. Linear: the buffer is the least value covering the thumb and a mark; the length is non-negative and fills the width beyond the buffer, or is 0 when the frame is narrower. Radial: the buffer is 0, the sweep is 360° − offset, the outer radius lies in [0, half the shorter side], and the radii are a mark height apart, capped by that half side. |
| SliderHelper.LinearTrackSize | Sources/ASlider/Helpers/SliderHelper.swift:113-117 | A linear layout centres on the frame, keeps a buffer as wide as the wider of thumb and mark, gives the rest of the width (never negative) to the track, and scales so the span fills it; the radii are untouched. |
| SliderHelper.RadialTrackSize | Sources/ASlider/Helpers/SliderHelper.swift:118-130 | A radial layout has no buffer, an arc of a full turn less the gap filled by the span, an outer radius of at most half the smaller side, and a ring as thick as the marks (the whole disc when the marks are taller). |
| SliderHelper.SliderPosition | Sources/ASlider/Helpers/SliderHelper.swift:135-137 | With a forward scaling, every value in range lands on the track: between half a buffer in and scaling × span further. |
| SliderHelper.Angle | Sources/ASlider/Helpers/SliderHelper.swift:138-140 | With a forward scaling, every value in range lands on the arc, between 0 and scaling × span. |
| SliderHelper.GetSliderValue | Sources/ASlider/Helpers/SliderHelper.swift:144-146 | The value read at an offset is the one whose track position is that offset. |
| SliderHelper.RadialShrinkRule | Sources/ASlider/Helpers/SliderHelper.swift:118-130 | The radii move inward exactly when the marks are taller than the track and the outer radius exceeds half the difference. When they move, they move by that half difference. |
| SliderHelper.PositionRoundTrip | Sources/ASlider/Helpers/SliderHelper.swift:135-146 | With a non-zero scaling, `getSliderValue(sliderPosition(v)) == v` for every value. |
| SliderHelper.ValueRoundTrip | Sources/ASlider/Helpers/SliderHelper.swift:135-146 | With a non-zero scaling, `sliderPosition(getSliderValue(x)) == x` for every x. |
| SliderHelper.LinearTrackSpansFrame | Sources/ASlider/Helpers/SliderHelper.swift:110-137 | After a linear layout in a frame at least a buffer wide, the lower bound sits half a buffer from the left edge and the upper bound half a buffer from the right edge. |
| SliderHelper.RadialArcEndsAtGap | Sources/ASlider/Helpers/SliderHelper.swift:118-140 | After a radial layout the lower bound is at angle 0 and the upper bound at 360° − offset, the start of the gap. |
| SliderHelper.AngleValueAsWritten | Sources/ASlider/Helpers/SliderHelper.swift:161-176 | The angle-to-value rule as written always gives a value in range. An angle in the gap gives the lower bound exactly when it is within half the gap of the full turn, and otherwise the upper bound. On the arc it gives angle/scaling when that is in range. |
| SliderHelper.AngleValueIgnoresLowerBound | Sources/ASlider/Helpers/SliderHelper.swift:166 | Counterexample: on the range 10...20 with scaling 36, value 15 is drawn at 180° but the formula as written reads it back as 10. |
| SliderHelper.AngleValueFromZero | Sources/ASlider/Helpers/SliderHelper.swift:161-176 | On a range starting at 0 the formula as written and the corrected one give the same value for every angle. |
| SliderHelper.AngleValue | Sources/ASlider/Helpers/SliderHelper.swift:161-176 | The corrected rule: the same gap rule, and lowerBound + angle/scaling clamped into the range on the arc. |
| SliderHelper.AngleRoundTrip | Sources/ASlider/Helpers/SliderHelper.swift:161-176 | On a radially laid-out track the corrected rule inverts `angle(of:)` for every value in range. |
| SliderHelper.Increment | Sources/ASlider/Helpers/SliderHelper.swift:218-245 | Explicit intervals are used as given. Auto marks are span/20 apart, auto labels span/2, and the auto radial spacing is the `autoAngle` input. |
| SliderHelper.TrackValues | Sources/ASlider/Helpers/SliderHelper.swift:193-254 | A zero interval gives no values. Otherwise the list is strictly ascending, its k-th term is start + k·interval, every term lies between the start and the maximum, and the next term would exceed the maximum. |
| SliderHelper.ComputeTrackValues | Sources/ASlider/Helpers/SliderHelper.swift:193-254 | The source's accumulating loop produces exactly that progression. |
| SliderHelper.AutoMarks | Sources/ASlider/Helpers/SliderHelper.swift:226-245 | Automatic marks are span/20 apart: 21 marks, from the lower bound to the upper bound inclusive. |
| SliderHelper.AutoLabels | Sources/ASlider/Helpers/SliderHelper.swift:218-225 | Automatic labels are the begin, the middle and the end of the range. |
| SliderHelper.NoMarksAreEmpty | Sources/ASlider/Helpers/SliderHelper.swift:193-196 | The `none` interval (`Common.NoMarks`, every 0) produces no marks, linear or radial. |
| SliderHelper.ClosestFrom | Sources/ASlider/Helpers/SliderHelper.swift:298-305 | The scan of consecutive pairs returns either the value itself or one of the marks. |
| SliderHelper.ClosestMark | Sources/ASlider/Helpers/SliderHelper.swift:295-306 | Snapping returns either the value unchanged or one of the helper's track marks. |
| SliderHelper.ClosestFromBracket | Sources/ASlider/Helpers/SliderHelper.swift:295-305 | On ascending marks the scan picks one end of the pair bracketing v: the one no farther from v, and the upper one on a tie. |
| SliderHelper.ClosestFromUnbracketed | Sources/ASlider/Helpers/SliderHelper.swift:295-305 | When no remaining pair brackets v, the scan returns v unchanged. |
| SliderHelper.ClosestOutside | Sources/ASlider/Helpers/SliderHelper.swift:295-305 | With no marks, or v outside [first, last), `closestMark` returns v. |
| SliderHelper.ClosestIsNearest | Sources/ASlider/Helpers/SliderHelper.swift:295-305 | Inside [first, last) the result is a bracketing mark, and no mark at all is nearer to v. |
| SliderHelper.ClosestIdempotent | Sources/ASlider/Helpers/SliderHelper.swift:295-305 | Snapping a mark value returns that mark. |
| SliderHelper.ClosestStable | Sources/ASlider/Helpers/SliderHelper.swift:295-305 | Snapping an already snapped value changes nothing. |
| SliderHelper.SetSlider | Sources/ASlider/Helpers/SliderHelper.swift:275-293 | The result is true exactly when the request is in range, and the stored value is always in range. The previous value becomes the last resting value unless a drag is in progress, and nothing else in the helper changes. The stored value is the clamped request, snapped to the nearest mark when snapping is on. |
| SliderHelper.CommitIdempotent | Sources/ASlider/Helpers/SliderHelper.swift:275-293 | Committing the value a commit just stored stores it again and reports it in range, with or without snapping. |
| SliderHelper.CommitInRangeExact | Sources/ASlider/Helpers/SliderHelper.swift:275-293 | Without snapping, an in-range request is stored exactly. |
| SliderHelper.TrackMarkStep | Sources/ASlider/Helpers/SliderHelper.swift:308-321 | The keyboard step of a real slider is the explicit positive `every` step, otherwise span/20. For an integer slider it is that step rounded to a whole number within 0.5 of it, or 1 when the step is below 0.5; never below 1. |
| SliderHelper.MoveSlider | Sources/ASlider/Helpers/SliderHelper.swift:263-272 | A key step commits value ± step through `setSlider`. It is handled exactly when value ± step is in range, but an overstep is not rejected: the value is clamped to the nearer bound (and snapped to the closest mark when snapping is on). Without snapping a handled step lands on value ± step, in the key's direction. At rest the old value becomes the last resting value, and nothing else in the helper changes. |
| Common.RoundHalfAway | Sources/ASlider/Helpers/SliderHelper.swift:316-318 | `rounded()` is within 0.5 of its argument, and a tie goes away from zero. |
| Common.RawStep | Sources/ASlider/Helpers/SliderHelper.swift:309-313 | The unrounded step is an explicit positive step, otherwise a twentieth of the span. |
| Common.StepSize | Sources/ASlider/SliderHelper.swift:90-103 | Real sliders step by the raw step. Integer sliders step by that step rounded half away from zero, never below 1. |
| Common.InHighlight | Sources/ASlider/1.SliderViews/TrackMarks/TrackMarks.swift:46-58 | A mark is in the highlight exactly when it lies in [lowerBound, value] for `lowest`, between the fixed point and the value in either order for `value(f)`, or in [0, upperBound] for `lastValue`. |
| Common.HighlightGrowsWithValue | Sources/ASlider/1.SliderViews/TrackMarks/TrackMarks.swift:46-53 | Anchored on the lower bound, raising the value never unhighlights a mark, and the marks between the old and the new value become highlighted. |
| Common.HighlightIncludesValue | Sources/ASlider/1.SliderViews/TrackMarks/TrackMarks.swift:46-53 | Under `lowest` and `value(f)` the mark under the thumb is highlighted. |
| Common.TintBarLayout | Sources/ASlider/1.SliderViews/Tint/Tint.swift:91-103 | A thumb left of the anchor gives a bar from its right edge to the anchor; otherwise the bar runs from the anchor to the thumb's left edge. The width is the distance less half a thumb. |
| Common.TintBarWithinSegment | Sources/ASlider/1.SliderViews/Tint.swift:83-95 | With a non-negative thumb width, a drawn bar never leaves the segment between the thumb and the anchor. |
| Common.Bar.RenderedWidth | Sources/ASlider/1.SliderViews/Tint/Tint.swift:93 | The frame width is never negative and equals the bar width whenever that is non-negative. |
| MarkSequence.Progression | Sources/ASlider/SliderHelper.swift:60-73 | The reference list: empty for a zero interval, otherwise the Count terms start + k·interval. |
| MarkSequence.ProgressionShape | Sources/ASlider/Helpers/SliderHelper.swift:193-204 | The progression is strictly ascending, starts at the start, stays in [start, end], is non-empty exactly when start ≤ end, and is maximal. |
| MarkSequence.ProgressionHitsEnd | Sources/ASlider/Helpers/SliderHelper.swift:193-204 | When the end is hit exactly, it is the last term. |
| MarkSequence.Accumulate | Sources/ASlider/SliderHelper.swift:66-72 | The loop `while next <= end { append; next += interval }` computes the reference progression. |
| LegacySliderHelper.Init | Sources/ASlider/SliderHelper.swift:27-33 | A helper exists exactly when lowerBound < upperBound, and it starts at rest with no buffer. |
| LegacySliderHelper.SetTrackLength | Sources/ASlider/SliderHelper.swift:44-49 | The buffer is the least value covering the thumb and a mark. Length + buffer = width, with no clamping, and scaling × span = length. |
| LegacySliderHelper.NarrowFrameReversesTrack | Sources/ASlider/SliderHelper.swift:44-53 | A frame narrower than the buffer gives a negative length and scaling, so the upper bound is drawn left of the lower bound. |
| LegacySliderHelper.SliderLocation | Sources/ASlider/SliderHelper.swift:51-53 | With a forward scaling, every value in range lands on the track: between half a buffer in and scaling × span further. |
| LegacySliderHelper.GetSliderValue | Sources/ASlider/SliderHelper.swift:55-58 | The value read at a location is the one whose `sliderLocation` is that location. |
| LegacySliderHelper.LocationRoundTrip | Sources/ASlider/SliderHelper.swift:51-58 | With a non-zero scaling, value → location → value and location → value → location are both identities. |
| LegacySliderHelper.ThumbPositionsAfterLayout | Sources/ASlider/SliderHelper.swift:35-49 | After a layout `minThumbPos` is buffer/2, `maxThumbPos` is half a buffer from the right edge, and they are a track length apart. |
| LegacySliderHelper.MinThumbPos | Sources/ASlider/SliderHelper.swift:35-37 | The lower bound's thumb position is half a buffer in from the leading edge. |
| LegacySliderHelper.MaxThumbPos | Sources/ASlider/SliderHelper.swift:38-40 | The upper bound's thumb position is scaling × span beyond the lower bound's. |
| LegacySliderHelper.MarkValues | Sources/ASlider/SliderHelper.swift:60-73 | `every(0)` (`Common.NoMarks`, the style's `none`) gives no marks. Otherwise the marks ascend strictly from the lower bound as lower + k·interval, all stay in range, and no further mark would fit. |
| LegacySliderHelper.ComputeMarkValues | Sources/ASlider/SliderHelper.swift:60-73 | The source's loop produces exactly those marks. |
| LegacySliderHelper.MarkIncrement | Sources/ASlider/SliderHelper.swift:62-65 | An explicit interval is used as given; the automatic one is a positive ninth of the span. |
| LegacySliderHelper.AutoMarkValues | Sources/ASlider/SliderHelper.swift:62-65 | Automatic marks are span/9 apart: ten marks, from the lower to the upper bound. |
| LegacySliderHelper.TrackMarkStep | Sources/ASlider/SliderHelper.swift:90-103 | The same step rule as the current helper. A real slider steps by the `every` step or span/20. An integer slider steps by that step rounded to a whole number within 0.5 of it, or by 1 when the step is below 0.5; never below 1. |
| LegacySliderHelper.IsValidSliderValue | Sources/ASlider/SliderHelper.swift:105-108 | Valid exactly when lowerBound ≤ v ≤ upperBound. |
| LegacySliderHelper.MoveSlider | Sources/ASlider/SliderHelper.swift:76-85 | Handled exactly when value ± step is valid. A handled move takes that value; an ignored one leaves the value unchanged. |
| LegacySliderHelper.MovePreservesValidity | Sources/ASlider/SliderHelper.swift:76-85 | A valid value stays valid, and a handled move goes in the key's direction. |
| LegacySliderHelper.MoveRightThenLeft | Sources/ASlider/SliderHelper.swift:76-85 | A handled right step from a valid value is undone by a handled left step. |
| Common.DefaultedMarkWidth | Sources/ASlider/2.Styling/SliderStyle.swift:78-80 | The explicit mark width, otherwise 40% of the track height; both style revisions (also Styles/SliderStyle.swift:91-93) size marks this way. |
| Common.DefaultedMarkHeight | Sources/ASlider/2.Styling/SliderStyle.swift:81-84 | The explicit mark height, otherwise the larger of the track height and 40% of the thumb height, so a default mark is never shorter than its track; shared by both style revisions. |
| SliderStyle.TrackBuffer | Sources/ASlider/2.Styling/SliderStyle.swift:67 | The buffer covers both the thumb and a mark, and equals one of them. |
| SliderStyle.ShadowColourOf | Sources/ASlider/2.Styling/SliderStyle.swift:91-100 | The shadow is gray exactly when its radius is positive. |
| LegacySliderStyle.SetTrackMarks | Sources/ASlider/Styles/SliderStyle.swift:83-85 | Only the mark interval changes. |
| LegacySliderStyle.ShadowColourOf | Sources/ASlider/Styles/SliderStyle.swift:104-113 | The shadow takes the tint colour exactly when its radius is positive, and is clear otherwise. |
| Indicators.DynamicTrackMarks | Sources/ASlider/Styles/SliderStyle.swift:71-78 | The scan finds a payload exactly when a `trackMarks` indicator is present, and returns the payload of one in the set. |
| Indicators.ContainsTrackMarks | Sources/ASlider/Styles/SliderStyle.swift:127-133 | True exactly when some indicator is a `trackMarks` case, whatever its payload. |
| Indicators.ContainsTintBar | Sources/ASlider/Styles/SliderStyle.swift:134-140 | True exactly when `tintBar` is in the set. |
| Indicators.DynamicIffContainsTrackMarks | Sources/ASlider/Styles/SliderStyle.swift:127-133 | The payload scan and the containment scan agree. |
| MarkGrowth.NormalisedX | Sources/ASlider/1.SliderViews/TrackMarks/TrackMarks.swift:84-92 | Nothing outside the zone value ± span·percent. Inside it, a number in [0, 1] that falls linearly with the distance: 1 exactly at the value, 0 exactly at the zone's edges. |
| MarkGrowth.SentinelAgrees | Sources/ASlider/TrackMarks.swift:89-96 | The sentinel version is non-negative exactly when the optional version has a value, agrees with it there, and is −1 otherwise. |
| MarkGrowth.CurveMonotone | Sources/ASlider/1.SliderViews/TrackMarks/TrackMarks.swift:72-79 | For a non-negative height and growth ≥ 1, the curve is non-decreasing on [0, 1] between the resting and the fully grown height. |
| MarkGrowth.CurvePeakOnlyAtThumb | Sources/ASlider/1.SliderViews/TrackMarks/TrackMarks.swift:72-79 | With real growth, the full height is reached only at x = 1, the mark under the thumb. |
| MarkGrowth.GrownHeight | Sources/ASlider/1.SliderViews/TrackMarks/TrackMarks.swift:70-79 | A grown height exists exactly for marks in the zone. It lies between the resting and the fully grown height, and reaches the top exactly at the value. |
| MarkGrowth.Frame | Sources/ASlider/1.SliderViews/TrackMarks/TrackMarks.swift:23-30 | The vertical padding makes room for marks grown by `growth`, and none without dynamic marks. Dynamic marks are bottom aligned. |
| MarkGrowth.FrameFitsTallestMark | Sources/ASlider/1.SliderViews/TrackMarks/TrackMarks.swift:23-30 | No grown mark is taller than the mark height plus the reserved padding. |
| TrackMarks.ShouldHighlight | Sources/ASlider/1.SliderViews/TrackMarks/TrackMarks.swift:40-59 | A mark is active exactly when the tinted-marks indicator is present and the mark is in the anchored highlight range. |
| TrackMarks.BarHeight | Sources/ASlider/1.SliderViews/TrackMarks/TrackMarks.swift:63-80 | The resting mark height unless the thumb is being dragged, the mark is active, marks are dynamic and the mark is in the zone; then the growth curve at the normalised distance. With sane inputs the height stays within the reserved frame. |
| TrackMarks.RestingMarksAreUniform | Sources/ASlider/1.SliderViews/TrackMarks/TrackMarks.swift:63-66 | At rest every mark has the style's mark height. |
| TrackMarks.MarkUnderThumbGrowsFully | Sources/ASlider/1.SliderViews/TrackMarks/TrackMarks.swift:63-80 | While dragging with tinted dynamic marks, the mark under the thumb is drawn at full growth. |
| TrackMarks.Layout | Sources/ASlider/1.SliderViews/TrackMarks/TrackMarks.swift:23-30 | The marks are padded by the helper's track buffer, and bottom aligned exactly for dynamic marks. |
| LegacyTrackMarks.ShouldHighlight | Sources/ASlider/1.SliderViews/TrackMarks.swift:43-57 | Highlighted exactly when a `trackMarks` indicator is present and the mark is in the anchored range. |
| LegacyTrackMarks.BarHeight | Sources/ASlider/1.SliderViews/TrackMarks.swift:61-76 | The resting height unless dragging, dynamic, highlighted and in the zone; then the growth curve. |
| LegacyTrackMarks.NoIndicatorNoGrowth | Sources/ASlider/1.SliderViews/TrackMarks.swift:43-76 | Without a `trackMarks` indicator no mark is highlighted and every mark keeps its resting height. |
| LegacyTrackMarks.Layout | Sources/ASlider/1.SliderViews/TrackMarks.swift:14-32 | The padding is the wider of the thumb and a mark, and the marks are bottom aligned exactly with a `trackMarks` indicator. |
| LegacyTrackMarks.LayoutMatchesHelper | Sources/ASlider/1.SliderViews/TrackMarks.swift:28-32 | The marks' padding equals the buffer the helper reserves for the same frame, so the first and last of the evenly spread marks are centred exactly on the thumb's end positions. |
| EarliestTrackMarks.ShouldHighlight | Sources/ASlider/TrackMarks.swift:57-70 | The three highlight ranges, with no indicator gate. |
| EarliestTrackMarks.BarGradient | Sources/ASlider/TrackMarks.swift:51-56 | A mark is inactive exactly when the `trackMarks` indicator is present and the mark is outside the highlight. |
| EarliestTrackMarks.BarHeight | Sources/ASlider/TrackMarks.swift:72-87 | Through the −1 sentinel it gives the same heights as the optional formulation: resting unless dragging, highlighted, dynamic and in the zone. |
| EarliestTrackMarks.Layout | Sources/ASlider/TrackMarks.swift:18-34 | The padding is the wider of the thumb and a mark, and dynamic marks are bottom aligned. |
| Tint.Anchor | Sources/ASlider/1.SliderViews/Tint/Tint.swift:24-32 | `lowest` anchors at 0, `value(f)` at f's track position, and `lastValue` at the last resting value's position. |
| Tint.ShouldShowTintBar | Sources/ASlider/1.SliderViews/Tint/Tint.swift:38-43 | Whether the tinted-track indicator is present; its effect is stated by `Tint.LinearTint`. |
| Tint.ShowTintBarStart | Sources/ASlider/1.SliderViews/Tint/Tint.swift:34-37 | Whether the anchor is not `lowest`; it has no contract of its own, and `Tint.LinearTint` states that the cap is drawn exactly then. |
| Tint.LinearTint | Sources/ASlider/1.SliderViews/Tint/Tint.swift:35-72 | The tint is drawn exactly with the tinted-track indicator. It has a start cap exactly when the anchor is not `lowest`, with the cap centred on the anchor, and its bar runs between the thumb and the anchor. |
| Tint.FixedAnchorBar | Sources/ASlider/1.SliderViews/Tint/Tint.swift:91-103 | Anchored on a fixed value on a forward track, the bar starts at the anchor when the thumb is at or past it and ends there otherwise. It stays between thumb and anchor, and is invisible within half a thumb of the anchor. |
| LegacyTint.Anchor | Sources/ASlider/1.SliderViews/Tint.swift:15-23 | The same three anchor rules, using the earlier helper and the last value passed in. |
| LegacyTint.LinearTint | Sources/ASlider/1.SliderViews/Tint.swift:26-63 | Drawn exactly with the `tintBar` indicator. It is capped exactly when the anchor is not `lowest`, with a mark-wide cap centred on the anchor. |
| LegacyTint.UnmovedThumbHasNoBar | Sources/ASlider/1.SliderViews/Tint.swift:83-95 | Anchored on the last value, a thumb that has not moved draws a zero-width bar. |
| EarliestTint.AnchorCentre | Sources/ASlider/Tint.swift:41-53 | `lowest` anchors at the lower bound's location, `value(f)` at f's location, and `lastValue` at 0. |
| EarliestTint.LinearTint | Sources/ASlider/Tint.swift:19-39 | A bar exactly with the `tintBar` indicator, laid out between the thumb and the anchor centre. |
| EarliestTint.LowestAnchorBar | Sources/ASlider/Tint.swift:72-86 | Anchored at the lowest value, the bar starts at the lower bound and ends half a thumb before the thumb. |
| TrackLayout.MinHeight | Sources/ASlider/TrackLayout.swift:26-29 | The reduction is no more than the seed or any subview height, and is one of them. |
| TrackLayout.MinHeightIsSmallest | Sources/ASlider/TrackLayout.swift:26-29 | With finite heights, the reduction is the height of some subview. |
| TrackLayout.SizeThatFits | Sources/ASlider/TrackLayout.swift:16-34 | Zero size for fewer than two subviews. Otherwise the width is proposal − hpad + min(hpad/2, first/2) + min(hpad/2, last/2), and the height is the smallest subview height plus vpad. |
| TrackLayout.SizeWithinProposal | Sources/ASlider/TrackLayout.swift:25-32 | The requested width never exceeds the proposal, and equals it when both end marks are at least as wide as the padding. |
| TrackLayout.AlignedY | Sources/ASlider/TrackLayout.swift:51-55 | y is the top for top alignments, the bottom for bottom alignments, and the middle otherwise. |
| TrackLayout.PlacedX | Sources/ASlider/TrackLayout.swift:49-65 | A mark no wider than the proposal is placed inside it. An unclamped position that fits is kept; otherwise the mark is pushed to one edge. |
| TrackLayout.PlaceSubviews | Sources/ASlider/TrackLayout.swift:35-72 | Nothing is placed for fewer than two subviews; otherwise every subview is placed at its clamped x and the aligned y. |
| TrackLayout.MarkCentresMatchTrack | Sources/ASlider/TrackLayout.swift:49-61 | With the helper's buffer as padding and the frame width as proposal, the i-th of n evenly spaced marks is centred at the track position of lower + i·span/(n−1). |
| SliderView.Build | Sources/ASlider/1.SliderViews/NewSlider.swift:134-135 | The view builds a real-valued helper with the caller's step, and succeeds exactly for a non-empty range. |
| SliderView.AdoptStyle | Sources/ASlider/1.SliderViews/NewSlider.swift:157-158 | Adopting the style changes neither the value, the last resting value, the range nor the step. |
| SliderView.RememberValue | Sources/ASlider/1.SliderViews/NewSlider.swift:204 | The current value becomes the last resting value; the style and drag state stay. |
| SliderView.AppearOrderIrrelevant | Sources/ASlider/1.SliderViews/NewSlider.swift:157-204 | The two appear handlers commute, and afterwards the last resting value is the current value. |
| SliderView.RequestedValue | Sources/ASlider/1.SliderViews/NewSlider.swift:231-235 | A linear pointer asks for the value whose track position is its x. A radial pointer asks for an in-range value through `getAngleValue` as the program has it, without the lower bound. |
| SliderView.IntendedRequestedValue | Sources/ASlider/1.SliderViews/NewSlider.swift:231-235 | The same request with the corrected angle rule; it agrees with the program on linear sliders and on ranges starting at 0. |
| SliderView.DragChanged | Sources/ASlider/1.SliderViews/NewSlider.swift:224-237 | A drag change marks the helper as dragging and toggles `dragStarted` only on the first change. The new value is in range. Without snapping it is the requested value (the program's angle rule on radial sliders) clamped to the nearer bound, so exactly the request when that is in range. |
| SliderView.DragEnded | Sources/ASlider/1.SliderViews/NewSlider.swift:238-241 | The drag ends and the current value becomes the last resting value. |
| SliderView.Drag | Sources/ASlider/1.SliderViews/NewSlider.swift:224-237 | A run of changes leaves the helper dragging and flips `dragStarted` once if it started at rest. Nothing else in the helper changes, and the value ends in range. |
| SliderView.WholeDrag | Sources/ASlider/1.SliderViews/NewSlider.swift:224-241 | A whole drag from rest flips `dragStarted` once, ends at rest with the last resting value equal to the final in-range value, and changes nothing else. |
| SliderView.DragKeepsLastValue | Sources/ASlider/1.SliderViews/NewSlider.swift:229-236 | During a drag the last resting value does not change. |
| SliderView.DragToPosition | Sources/ASlider/1.SliderViews/NewSlider.swift:233-236 | Without snapping, dragging a linear slider to a value's track position sets exactly that value. |
| SliderView.DragToAngle | Sources/ASlider/1.SliderViews/NewSlider.swift:231-236 | Without snapping, dragging a laid-out radial slider whose range starts at 0 to a value's angle sets exactly that value. |
| SliderView.IntendedDragToAngle | Sources/ASlider/1.SliderViews/NewSlider.swift:231-236 | With the corrected angle rule, the angle of any value in range on a laid-out radial slider reads back as that value. |
| SliderView.DragToAngleIgnoresLowerBound | Sources/ASlider/1.SliderViews/NewSlider.swift:231-236 | Counterexample: on 10...20 with scaling 36, dragging to the angle of 15 stores 10. |
| EarliestSliderView.IntWrite | Sources/ASlider/NewSlider.swift:50 | The Int binding stores a whole number within 0.5 of the value. |
| EarliestSliderView.IntBindingRoundTrip | Sources/ASlider/NewSlider.swift:42-56 | Writing back an integer read from the binding gives it unchanged, and a value within an integer range is stored within it. |
| EarliestSliderView.Write | Sources/ASlider/NewSlider.swift:50 | A `Double` binding stores the value itself; an `Int` binding stores a whole number within 0.5 of it. |
| EarliestSliderView.WriteKeepsValid | Sources/ASlider/NewSlider.swift:42-56 | On an integer range with whole bounds, writing an in-range value stores an in-range value. |
| EarliestSliderView.Tap | Sources/ASlider/NewSlider.swift:87-89 | A tap writes the value at the tapped x with no range check. A `Double` binding then holds the value whose location is x; an `Int` binding holds a whole number within 0.5 of it. |
| EarliestSliderView.TapCanLeaveRange | Sources/ASlider/NewSlider.swift:87-89 | A tap in the padding left of the track asks for a value below the range. A `Double` binding stores it; an `Int` binding stores at most the lower bound. |
| EarliestSliderView.TapBreaksLowestHighlight | Sources/ASlider/NewSlider.swift:87-89 | Counterexample: after such a tap the `lowest` highlight range lowerBound...value cannot be formed. |
| EarliestSliderView.GuardedWrite | Sources/ASlider/NewSlider.swift:120 | A valid asked value is written through the binding and stays valid; an invalid one leaves the value as it was. |
| EarliestSliderView.CheckedTap | Sources/ASlider/NewSlider.swift:87-89 | The corrected tap, checked like the drag: it keeps a valid value valid, and agrees with the tap whenever the tapped value is valid. |
| EarliestSliderView.CheckedTapKeepsHighlight | Sources/ASlider/NewSlider.swift:87-89 | After a checked tap from a valid value the `lowest` highlight range can always be formed. |
| EarliestSliderView.DragChanged | Sources/ASlider/NewSlider.swift:116-121 | `dragStarted` toggles only at drag start. The pointer's value is written through the binding only when it is valid; otherwise the value stays. |
| EarliestSliderView.DragEnded | Sources/ASlider/NewSlider.swift:122 | Ending a drag clears the drag flag and changes nothing else. |
| EarliestSliderView.DragKeepsValid | Sources/ASlider/NewSlider.swift:116-122 | Unlike a tap, a drag never takes a valid value out of the range, for `Double` and `Int` bindings alike. |
| Thumb.KeyPressIsMove | Sources/ASlider/1.SliderViews/Thumb.swift:14-28 | From a synchronised state a key press, with its change handlers, leaves value and proxy both on `moveSlider`'s result, in range. It is handled exactly when the step stayed in range, and the helper ends exactly as `moveSlider` leaves it: at rest the old value becomes the last resting value. |
| Thumb.KeyHandlers | Sources/ASlider/1.SliderViews/Thumb.swift:25-27 | The two change handlers after the arrow key's commit. It has no contract of its own; `Thumb.SyncedHandlers` states their outcome from a synchronised state. |
| Thumb.SyncedHandlers | Sources/ASlider/1.SliderViews/Thumb.swift:25-27 | When value and proxy agree, the proxy's change handler commits whatever the arrow key stored again, which changes nothing, and the value's handler copies it back; both copies end on the first commit's value. |
| Thumb.SyncedKeyPress | Sources/ASlider/1.SliderViews/Thumb.swift:14-28 | When value and proxy agree, the proxy's change handler commits the value the arrow key just stored, which leaves it unchanged, so both copies end on the key's committed value. |
| Thumb.ArrowKeyPress | Sources/ASlider/1.SliderViews/Thumb.swift:14-20 | A step in the key's direction committed through `setSlider`. It has no contract of its own; `Thumb.KeyPressIsMove` states that it computes `moveSlider`. |
| Thumb.KeyPress | Sources/ASlider/1.SliderViews/Thumb.swift:14-28 | The key press with both change handlers. It has no contract of its own; `Thumb.KeyPressIsMove` and `Thumb.SyncedKeyPress` state its outcome from a synchronised state. |
| Thumb.RightAtUpperIgnored | Sources/ASlider/1.SliderViews/Thumb.swift:14-20 | A right arrow at the upper bound is ignored and the value stays there. |
| Thumb.ThumbInsideFrame | Sources/ASlider/1.SliderViews/Thumb.swift:66-68 | On a laid-out linear track the thumb of any in-range value lies inside the frame, centred on the value's position. |
| Thumb.LinearOffset | Sources/ASlider/1.SliderViews/Thumb.swift:68 | The thumb is offset so that its centre is the value's track position. |
| Thumb.RadialThumbEnds | Sources/ASlider/1.SliderViews/Thumb.swift:69-75 | The radial thumb sits above the centre, rotated 0 at the lower bound and 360° − offset at the upper bound. |
| Thumb.RadialThumb | Sources/ASlider/1.SliderViews/Thumb.swift:69-75 | The radial thumb is placed on the vertical through the centre, the inner radius plus half the track height above it, and rotated by the value's angle. |
| EarliestThumb.ArrowKeyPress | Sources/ASlider/Thumb.swift:36-43 | The guarded key press agrees with the earlier `moveSlider`: an out-of-range step is ignored and the proxy kept. |
| EarliestThumb.KeyPress | Sources/ASlider/Thumb.swift:29-43 | From a synchronised state, value and proxy both end on `moveSlider`'s result. |
| EarliestThumb.KeyPressKeepsValid | Sources/ASlider/Thumb.swift:36-43 | Key presses never take a valid value out of the range. |
| EarliestThumb.ThumbAtLowerBound | Sources/ASlider/Thumb.swift:24 | After a layout with the thumb at least as wide as a mark, the lower bound's thumb starts at the left edge and the upper bound's thumb ends at the right edge. |
| EarliestThumb.Offset | Sources/ASlider/Thumb.swift:24 | The thumb is offset so that its centre is the value's location. |
| EarliestThumb.Visible | Sources/ASlider/Thumb.swift:20-21 | The thumb is drawn exactly with the thumb indicator and regular (non-dynamic) marks. It has no contract; see "## Left out". |

## Left out

- Trigonometry and square roots: the `asin` and hypotenuse half of `getAngleValue`, the `atan` auto interval of radial marks, `Angle+math` and `CGPoint+distance+hypotenuse`. The pointer's angle and the radial auto interval (`autoAngle`) are inputs.
- Radians: angles are degrees. `trackAngles` converts `every(i)` from degrees, which matches, and the radian factor cancels in the ratios used.
- Floating point: `Double` is modelled by exact `real`, so `next += interval` is exactly `start + k·interval`.
- NaN and infinity are excluded by preconditions: a zero scaling (`scaling ≠ 0`) and a zero growth zone at the thumb itself.
- A negative mark interval is excluded, because the source's loop never ends for it.
- The newest style type is not part of this model. `SliderHelper.HelperStyle` holds exactly the fields the helper and its views read. Its `dynamicTrackMarks` is taken to be the payload of `trackMarkStyle`'s dynamic-sizing case.
- The earliest revision's style record is not part of this model. Its views read parameters instead: the indicator test, the dynamic payload and the sizes.
- `Set` iteration order is unspecified in Swift. The earlier style's indicator set is a sequence in scan order, so the dynamic payload found is the first in that order.
- The macOS `#if` branch of `updateStyle` is a boolean parameter. The capsule thumb symbol and the colours it sets are not modelled; only the track's clear / non-clear distinction is.
- `Warning.log` is an OSLog side effect and is a no-op here.
- Views, rendering, colours, fonts, animation, hover and glow effects, the `ShapeEffect` task, `readFrame`/`readSize`, and the environment style helpers are SwiftUI plumbing.
- The radial tint, the radial track marks, the archived radial thumb and the Polo shape are views built on trigonometry.
- The earliest tint's start capsule is always drawn in a clear colour, so only its bar is modelled.
- The accessibility modifier only forwards to `moveSlider`, which is modelled.
- `PredefinedStyles` is static configuration data built from initialisers that are not shown.
- `Set+contains` duplicates the earlier style's `containsTrackMarks`/`containsTintBar`, which are modelled as `Indicators.ContainsTrackMarks`/`ContainsTintBar`.
- `TrackLayout` subviews are given by their ideal sizes. The placement is returned rather than performed.
- EarliestSliderView.IntWrite: `Int(x)` traps outside the 64-bit range; integers here are unbounded, so that trap is not modelled.
- Thumb.KeyPress: the outcome is stated only from a synchronised value and proxy (`Thumb.KeyPressIsMove`). The handlers keep the two synchronised, and other starting states arise only mid-update.
- Thumb.ArrowKeyPress carries no contract of its own; `Thumb.KeyPressIsMove` states what it computes, through `SliderHelper.MoveSlider`.
- EarliestThumb.Visible: the thumb's visibility and its shadow are view decisions and are not stated as properties.
- TrackMarks.ShouldHighlight: the Swift closed range `rangeStart...rangeEnd` traps when its start exceeds its end, so the requires leave out a `lowest` anchor with the value below the lower bound and a `lastValue` anchor on a range whose upper bound is negative. A `lastValue` anchor therefore traps on every entirely negative range, such as -10...-5.
- LegacyTrackMarks.ShouldHighlight: the same closed-range trap is left out by its requires, for the same two cases.
- EarliestTrackMarks.ShouldHighlight: the same closed-range trap is left out, and so it is for `EarliestTrackMarks.BarGradient` and `EarliestTrackMarks.BarHeight`. The `lowest` case is reachable if the tap handler runs; the zero-distance high-priority drag at NewSlider.swift:90 may pre-empt it (see Findings).
- EarliestThumb.KeyPress: the value is written without the `Int` binding's rounding. An integer slider's step is a whole number and its value already whole, so the rounding changes nothing there.
- The `isDragging`-dependent thumb colour, focusability and opacity are not modelled.

## Findings

| source | as written | input that shows it | evidently intended | confidence | as-written member | corrected member |
|---|---|---|---|---|---|---|
| Sources/ASlider/Helpers/SliderHelper.swift:166 | On the arc the value is `angle / scaling`, clamped into the range | range 10...20, offset 0, scaling 36: value 15 is drawn at 180°, and dragging to 180° reads back 10 | `lowerBound + angle / scaling`, the inverse of `angle(of:)` | not executed | SliderHelper.AngleValueAsWritten (counterexample SliderHelper.AngleValueIgnoresLowerBound) | SliderHelper.AngleValue (inverse proved by SliderHelper.AngleRoundTrip) |
| Sources/ASlider/NewSlider.swift:87-89 | A tap writes `getSliderValue(of: x)` with no range check, although the drag at :120 checks `isValidSliderValue` | a `Double` slider with a positive buffer, tapped at x = 0, gets a value below lowerBound if the tap handler runs (the zero-distance high-priority drag at :90, whose handler rejects that value, may pre-empt it); with the `lowest` anchor, TrackMarks.swift:69 then builds `lowerBound...value`, which traps | the tap checked like the drag, so the value stays in range | not executed | EarliestSliderView.Tap (counterexample EarliestSliderView.TapBreaksLowestHighlight) | EarliestSliderView.CheckedTap (EarliestSliderView.CheckedTapKeepsHighlight) |

=== FILE: common.dfy ===
/** Vocabulary shared by every revision of the slider: the value range, the
    interval and highlight-anchor enumerations, rounding, and the tint bar
    arithmetic that all three revisions of the tint view repeat verbatim. */
module Common {

  datatype Option<+T> = None | Some(value: T)

  /** Outcome of constructing a helper: the source stops with a fatal error
      when the range is empty or inverted. */
  datatype Construction<+T> = Built(helper: T) | InvalidRange

  /** A closed range `lower...upper` of slider values. */
  datatype Range = Range(lower: real, upper: real) {
    predicate Valid() { lower < upper }

    /** `upperBound - lowerBound` */
    function Span(): real { upper - lower }

    predicate Contains(v: real) { lower <= v <= upper }
  }

  datatype Point = Point(x: real, y: real)

  /** A measured frame: origin, width and height. */
  datatype Rect = Rect(minX: real, minY: real, width: real, height: real) {
    function MidX(): real { minX + width / 2.0 }
    function MidY(): real { minY + height / 2.0 }
    function MaxY(): real { minY + height }
  }

  function Max(a: real, b: real): real { if a < b then b else a }
  function Min(a: real, b: real): real { if b < a then b else a }
  function Abs(x: real): real { if x < 0.0 then -x else x }

  /** Spacing of track marks or labels: a fixed step, or one derived from the range. */
  datatype MarkInterval = Every(step: real) | Auto

  /** `none` in both style revisions: the interval that produces no marks. */
  const NoMarks: MarkInterval := Every(0.0)

  /** Where a tint bar (and the highlighted marks) are anchored. */
  datatype CentredOn = Value(fixed: real) | LastValue | Lowest

  /** Keyboard and accessibility movement; the raw value is the sign of the step. */
  datatype Movement = Left | Right {
    function Sign(): (s: real)
      ensures s == 1.0 || s == -1.0
      ensures s > 0.0 <==> this == Right
    {
      match this
      case Left => -1.0
      case Right => 1.0
    }
  }

  predicate IsIntegral(x: real) { x == x.Floor as real }

  /** Rounding to the nearest integer, halves away from zero (the default rule
      of the source's `rounded()`). */
  function RoundHalfAway(x: real): (r: int)
    ensures Abs(r as real - x) <= 0.5
    ensures Abs(r as real - x) == 0.5 ==> Abs(r as real) > Abs(x)
  {
    if x >= 0.0 then (x + 0.5).Floor else -((-x + 0.5).Floor)
  }

  lemma {:induction false} RoundHalfAwayOfInteger(n: int)
    ensures RoundHalfAway(n as real) == n
  {
    var r := RoundHalfAway(n as real);
    assert -0.5 <= r as real - n as real <= 0.5;
    assert r - n < 1 && n - r < 1;
  }

  /** The keyboard step before integer rounding: an explicit positive step,
      otherwise a twentieth of the span. */
  function RawStep(range: Range, interval: MarkInterval): (r: real)
    requires range.Valid()
    ensures r > 0.0
    ensures interval.Every? && interval.step > 0.0 ==> r == interval.step
    ensures !(interval.Every? && interval.step > 0.0) ==> r * 20.0 == range.Span()
  {
    if interval.Every? && interval.step > 0.0 then interval.step
    else (range.upper - range.lower) / 20.0
  }

  /** `trackMarkStep`, identical in both helper revisions: the raw step, and
      for integer sliders that step rounded half away from zero and never
      below 1. */
  function StepSize(range: Range, interval: MarkInterval, isInt: bool): (r: real)
    requires range.Valid()
    ensures r > 0.0
    ensures !isInt ==> r == RawStep(range, interval)
    ensures isInt ==> IsIntegral(r) && r >= 1.0
    ensures isInt && RawStep(range, interval) >= 0.5 ==>
      Abs(r - RawStep(range, interval)) <= 0.5
      && (Abs(r - RawStep(range, interval)) == 0.5 ==> r > RawStep(range, interval))
    ensures isInt && RawStep(range, interval) < 0.5 ==> r == 1.0
  {
    var increment := RawStep(range, interval);
    if isInt then
      var rounded := RoundHalfAway(increment) as real;
      if rounded < 1.0 then 1.0 else rounded
    else increment
  }

  /** `i_trackMarkWidth`, the same in both style revisions: the explicit
      width, else 40% of the track height. */
  function DefaultedMarkWidth(explicit: Option<real>, trackHeight: real): (w: real)
    ensures explicit.Some? ==> w == explicit.value
    ensures explicit.None? ==> w == trackHeight * 0.4
  {
    if explicit.Some? then explicit.value else trackHeight * 0.4
  }

  /** `i_trackMarkHeight`, the same in both style revisions: the explicit
      height, else the larger of the track height and 40% of the thumb
      height, so a default mark is never shorter than the track it sits on. */
  function DefaultedMarkHeight(explicit: Option<real>, trackHeight: real, thumbHeight: real): (h: real)
    ensures explicit.Some? ==> h == explicit.value
    ensures explicit.None? ==>
      h >= trackHeight && h >= thumbHeight * 0.4 && (h == trackHeight || h == thumbHeight / 2.5)
  {
    if explicit.Some? then explicit.value else Max(thumbHeight / 2.5, trackHeight)
  }

  /** The closed range of mark values a highlight rule selects: from the lower
      bound up to the value, between the fixed point and the value in either
      order, or (for `lastValue`) from the literal 0 up to the upper bound. */
  function HighlightBounds(c: CentredOn, range: Range, value: real): (real, real)
  {
    match c
    case Lowest => (range.lower, value)
    case Value(f) => if f < value then (f, value) else (value, f)
    case LastValue => (0.0, range.upper)
  }

  /** A Swift closed range traps when its start exceeds its end; these are the
      inputs for which the highlight range can be formed at all. */
  predicate HighlightDefined(c: CentredOn, range: Range, value: real)
  {
    && (c.Lowest? ==> range.lower <= value)
    && (c.LastValue? ==> 0.0 <= range.upper)
  }

  /** Whether a mark lies in the closed range the highlight rule selects. */
  predicate InHighlight(c: CentredOn, range: Range, value: real, mark: real)
    requires HighlightDefined(c, range, value)
    ensures c.Lowest? ==> (InHighlight(c, range, value, mark) <==> range.lower <= mark <= value)
    ensures c.Value? ==>
      (InHighlight(c, range, value, mark) <==> Min(c.fixed, value) <= mark <= Max(c.fixed, value))
    ensures c.LastValue? ==> (InHighlight(c, range, value, mark) <==> 0.0 <= mark <= range.upper)
  {
    var (start, end) := HighlightBounds(c, range, value);
    start <= mark <= end
  }

  /** Anchored on the lower bound, moving the thumb up never unhighlights a
      mark, and a mark between the old and the new value becomes highlighted. */
  lemma HighlightGrowsWithValue(range: Range, v1: real, v2: real, mark: real)
    requires range.lower <= v1 <= v2
    ensures InHighlight(Lowest, range, v1, mark) ==> InHighlight(Lowest, range, v2, mark)
    ensures v1 < mark <= v2 ==> !InHighlight(Lowest, range, v1, mark) && InHighlight(Lowest, range, v2, mark)
  {
  }

  /** The mark sitting under the thumb is highlighted whenever the rule is
      anchored below or on a fixed point. */
  lemma HighlightIncludesValue(c: CentredOn, range: Range, value: real)
    requires !c.LastValue?
    requires HighlightDefined(c, range, value)
    ensures InHighlight(c, range, value, value)
  {
  }

  /** Start and width of a linear tint bar drawn between a thumb located at
      `location` and an anchor at `fixed`. */
  datatype Bar = Bar(start: real, width: real) {
    /** The frame never gets a negative width. */
    function RenderedWidth(): (w: real)
      ensures w >= 0.0
      ensures w >= width
      ensures width >= 0.0 ==> w == width
    {
      Max(width, 0.0)
    }
  }

  /** The tint bar stops at the thumb's edge on the side of the anchor: it runs
      from the thumb's right edge to the anchor when the thumb is left of the
      anchor, and from the anchor to the thumb's left edge otherwise. */
  function TintBarLayout(location: real, fixed: real, thumbWidth: real): (b: Bar)
    ensures location < fixed ==> b.start == location + thumbWidth / 2.0 && b.start + b.width == fixed
    ensures fixed <= location ==> b.start == fixed && b.start + b.width == location - thumbWidth / 2.0
    ensures b.width == Abs(location - fixed) - thumbWidth / 2.0
  {
    if location < fixed then
      var start := location + thumbWidth * 0.5;
      Bar(start, fixed - start)
    else
      Bar(fixed, location - fixed - thumbWidth * 0.5)
  }

  /** With a non-negative thumb width the drawn bar never leaves the segment
      between the thumb centre and the anchor. */
  lemma TintBarWithinSegment(location: real, fixed: real, thumbWidth: real)
    requires thumbWidth >= 0.0
    ensures var b := TintBarLayout(location, fixed, thumbWidth);
      b.width >= 0.0 ==>
        Min(location, fixed) <= b.start && b.start + b.width <= Max(location, fixed)
  {
  }
}

=== FILE: indicators.dfy ===
/** The slider indicators of the two style revisions that share them (the
    thumb, the tint bar, and dynamically sized track marks). The source keeps
    them in a `Set` and scans it with `for ... in`; the scan order of a Swift set
    is unspecified, so the model takes the set as a sequence in whatever order
    the scan visits it. */
module Indicators {
  import opened Common

  datatype Indicator = Thumb | TintBar | TrackMarks(percent: real, growth: real)

  /** The `(percent, growth)` payload of the first `trackMarks` indicator. */
  function DynamicTrackMarks(indicators: seq<Indicator>): (r: Option<(real, real)>)
    ensures r.Some? <==> exists i :: 0 <= i < |indicators| && indicators[i].TrackMarks?
    ensures r.Some? ==> TrackMarks(r.value.0, r.value.1) in indicators
  {
    if |indicators| == 0 then None
    else
      match indicators[0]
      case TrackMarks(p, g) => Some((p, g))
      case _ =>
        var rest := DynamicTrackMarks(indicators[1..]);
        assert forall i :: 1 <= i < |indicators| ==> indicators[i] == indicators[1..][i - 1];
        rest
  }

  /** True when some indicator is a `trackMarks` case, whatever its payload. */
  function ContainsTrackMarks(indicators: seq<Indicator>): (r: bool)
    ensures r <==> exists i :: 0 <= i < |indicators| && indicators[i].TrackMarks?
  {
    if |indicators| == 0 then false
    else if indicators[0].TrackMarks? then true
    else
      var rest := ContainsTrackMarks(indicators[1..]);
      assert forall i :: 1 <= i < |indicators| ==> indicators[i] == indicators[1..][i - 1];
      rest
  }

  /** True when the tint bar indicator is present. */
  function ContainsTintBar(indicators: seq<Indicator>): (r: bool)
    ensures r <==> TintBar in indicators
  {
    if |indicators| == 0 then false
    else if indicators[0] == TintBar then true
    else
      var rest := ContainsTintBar(indicators[1..]);
      assert indicators == [indicators[0]] + indicators[1..];
      rest
  }

  /** A dynamic-sizing payload exists exactly when the set contains a
      `trackMarks` indicator: the two scans agree. */
  lemma DynamicIffContainsTrackMarks(indicators: seq<Indicator>)
    ensures DynamicTrackMarks(indicators).Some? == ContainsTrackMarks(indicators)
  {
  }
}

=== FILE: legacy_slider_helper.dfy ===
/** The earlier slider helper (`SliderHelper.swift` at the package root): a
    linear-only helper with a track length, a buffer, the value/position
    conversion, mark values, and keyboard stepping that refuses a step leaving
    the range instead of clamping it. */
module LegacySliderHelper {
  import opened Common
  import MarkSequence

  datatype Helper = Helper(
    range: Range,
    isInt: bool,
    trackLength: real,
    thumbWidth: real,
    scaling: real,
    isDragging: bool,
    dragStarted: bool,
    buffer: real)

  predicate Valid(h: Helper) { h.range.Valid() }

  /** `init`: refuses an empty or inverted range; otherwise starts at rest with
      the placeholder geometry (length 1, thumb 1, scaling 1, no buffer). */
  function Init(range: Range, isInt: bool): (c: Construction<Helper>)
    ensures c.Built? <==> range.lower < range.upper
    ensures c.Built? ==>
      && Valid(c.helper) && c.helper.range == range && c.helper.isInt == isInt
      && !c.helper.isDragging && !c.helper.dragStarted && c.helper.buffer == 0.0
  {
    if !(range.lower < range.upper) then InvalidRange
    else Built(Helper(range, isInt, 1.0, 1.0, 1.0, false, false, 0.0))
  }

  /** `setTrackLength`: the buffer is the wider of the thumb and a mark and the
      track gets the rest of the width. Unlike the later revision the length
      is not clamped at 0. */
  function SetTrackLength(h: Helper, width: real, thumbWidth: real, trackMarkWidth: real): (r: Helper)
    requires Valid(h)
    ensures r == h.(thumbWidth := thumbWidth, buffer := r.buffer, trackLength := r.trackLength,
                    scaling := r.scaling)
    ensures r.buffer >= thumbWidth && r.buffer >= trackMarkWidth
    ensures r.buffer == thumbWidth || r.buffer == trackMarkWidth
    ensures r.trackLength + r.buffer == width
    ensures r.scaling * h.range.Span() == r.trackLength
  {
    var buffer := Max(thumbWidth, trackMarkWidth);
    var length := width - buffer;
    h.(thumbWidth := thumbWidth, buffer := buffer, trackLength := length, scaling := length / h.range.Span())
  }

  /** A frame narrower than the thumb gives a negative track length and so a
      negative scaling: the track then runs backwards. */
  lemma NarrowFrameReversesTrack(h: Helper, width: real, thumbWidth: real, trackMarkWidth: real)
    requires Valid(h) && width < Max(thumbWidth, trackMarkWidth)
    ensures var r := SetTrackLength(h, width, thumbWidth, trackMarkWidth);
      r.trackLength < 0.0 && r.scaling < 0.0
      && SliderLocation(r, h.range.upper) < SliderLocation(r, h.range.lower)
  {
    var r := SetTrackLength(h, width, thumbWidth, trackMarkWidth);
    assert r.scaling * h.range.Span() < 0.0;
    assert SliderLocation(r, h.range.upper) - SliderLocation(r, h.range.lower) == h.range.Span() * r.scaling;
  }

  /** `sliderLocation(of:)`: with a forward scaling, values in range land on
      the track, which starts half a buffer in and is scaling × span long. */
  function SliderLocation(h: Helper, v: real): (x: real)
    ensures h.scaling >= 0.0 && h.range.Contains(v) ==>
      h.buffer * 0.5 <= x <= h.buffer * 0.5 + h.range.Span() * h.scaling
  {
    MarkSequence.ScaledWithin(v - h.range.lower, h.range.Span(), h.scaling);
    h.buffer * 0.5 + (v - h.range.lower) * h.scaling
  }

  /** `getSliderValue(of:)`: the value whose location is `x`; meaningful only
      once the track has a length. */
  function GetSliderValue(h: Helper, x: real): (v: real)
    requires h.scaling != 0.0
    ensures SliderLocation(h, v) == x
  {
    var q := (x - h.buffer * 0.5) / h.scaling;
    assert q * h.scaling == x - h.buffer * 0.5;
    var v := h.range.lower + q;
    assert SliderLocation(h, v) == h.buffer * 0.5 + q * h.scaling;
    v
  }

  lemma LocationRoundTrip(h: Helper, v: real)
    requires h.scaling != 0.0
    ensures GetSliderValue(h, SliderLocation(h, v)) == v
    ensures SliderLocation(h, GetSliderValue(h, v)) == v
  {
    var x := SliderLocation(h, v);
    var w := GetSliderValue(h, x);
    assert h.buffer * 0.5 + (w - h.range.lower) * h.scaling == x;
    MarkSequence.MulCancel(w - h.range.lower, v - h.range.lower, h.scaling);
  }

  /** `minThumbPos` / `maxThumbPos`: the locations of the two bounds. After a
      layout they sit half a buffer in from either edge of the frame. */
  function MinThumbPos(h: Helper): (p: real)
    ensures p == h.buffer / 2.0
  {
    SliderLocation(h, h.range.lower)
  }

  function MaxThumbPos(h: Helper): (p: real)
    ensures p - MinThumbPos(h) == h.range.Span() * h.scaling
  {
    SliderLocation(h, h.range.upper)
  }

  lemma ThumbPositionsAfterLayout(h: Helper, width: real, thumbWidth: real, trackMarkWidth: real)
    requires Valid(h)
    ensures var r := SetTrackLength(h, width, thumbWidth, trackMarkWidth);
      && MinThumbPos(r) == r.buffer / 2.0
      && MaxThumbPos(r) + r.buffer / 2.0 == width
      && MaxThumbPos(r) - MinThumbPos(r) == r.trackLength
  {
    var r := SetTrackLength(h, width, thumbWidth, trackMarkWidth);
    assert MaxThumbPos(r) == r.buffer * 0.5 + h.range.Span() * r.scaling;
  }

  /** The mark spacing `markValues` uses: explicit, or a ninth of the span. */
  function MarkIncrement(h: Helper, marks: MarkInterval): (i: real)
    requires Valid(h)
    ensures marks.Every? ==> i == marks.step
    ensures marks.Auto? ==> i * 9.0 == h.range.Span() && i > 0.0
  {
    match marks
    case Every(i) => i
    case Auto => h.range.Span() / 9.0
  }

  /** `markValues(from:)`: no marks for a zero spacing, otherwise every
      `lower + k * i` up to and including the upper bound. A negative spacing
      never stops the source's loop, so it is excluded. */
  function MarkValues(h: Helper, marks: MarkInterval): (r: seq<real>)
    requires Valid(h) && MarkIncrement(h, marks) >= 0.0
    ensures MarkIncrement(h, marks) == 0.0 ==> r == []
    ensures marks == NoMarks ==> r == []
    ensures MarkSequence.StrictlyAscending(r)
    ensures MarkIncrement(h, marks) > 0.0 ==> |r| > 0 && r[0] == h.range.lower
    ensures forall k :: 0 <= k < |r| ==> r[k] == h.range.lower + k as real * MarkIncrement(h, marks)
    ensures forall k :: 0 <= k < |r| ==> h.range.Contains(r[k])
    ensures MarkIncrement(h, marks) > 0.0 ==>
      h.range.lower + |r| as real * MarkIncrement(h, marks) > h.range.upper
  {
    var interval := MarkIncrement(h, marks);
    if interval == 0.0 then []
    else
      MarkSequence.ProgressionShape(h.range.lower, interval, h.range.upper);
      MarkSequence.Progression(h.range.lower, interval, h.range.upper)
  }

  /** The loop of `markValues` computes `MarkValues`. */
  method ComputeMarkValues(h: Helper, marks: MarkInterval) returns (r: seq<real>)
    requires Valid(h) && MarkIncrement(h, marks) >= 0.0
    ensures r == MarkValues(h, marks)
  {
    var interval := MarkIncrement(h, marks);
    if interval == 0.0 {
      return [];
    }
    r := MarkSequence.Accumulate(h.range.lower, interval, h.range.upper);
  }

  /** Automatic marks: ten marks, the last on the upper bound. */
  lemma AutoMarkValues(h: Helper)
    requires Valid(h)
    ensures var m := MarkValues(h, Auto);
      |m| == 10 && m[0] == h.range.lower && m[9] == h.range.upper
  {
    var i := h.range.Span() / 9.0;
    MarkSequence.ProgressionHitsEnd(h.range.lower, i, 9);
    assert h.range.lower + 9 as real * i == h.range.upper;
  }

  /** `trackMarkStep(of:)`, the same rule as the later helper. */
  function TrackMarkStep(h: Helper, marks: MarkInterval): (r: real)
    requires Valid(h)
    ensures r > 0.0
    ensures h.isInt ==> r >= 1.0 && IsIntegral(r)
    ensures !h.isInt ==> r == RawStep(h.range, marks)
    ensures h.isInt && RawStep(h.range, marks) >= 0.5 ==> Abs(r - RawStep(h.range, marks)) <= 0.5
    ensures h.isInt && RawStep(h.range, marks) < 0.5 ==> r == 1.0
  {
    StepSize(h.range, marks, h.isInt)
  }

  /** `isValidSliderValue`: inside the closed range. */
  function IsValidSliderValue(h: Helper, v: real): (b: bool)
    ensures b <==> h.range.Contains(v)
  {
    v <= h.range.upper && v >= h.range.lower
  }

  /** Result of `moveSlider`: the value after the key press and whether the
      press was handled. */
  datatype Move = Move(value: real, handled: bool)

  /** `moveSlider`: steps the value only if the stepped value stays in range;
      otherwise the value is left as it was and the press is ignored. */
  function MoveSlider(h: Helper, value: real, direction: Movement, marks: MarkInterval): (m: Move)
    requires Valid(h)
    ensures var candidate := value + TrackMarkStep(h, marks) * direction.Sign();
      && (m.handled <==> IsValidSliderValue(h, candidate))
      && (m.handled ==> m.value == candidate)
      && (!m.handled ==> m.value == value)
  {
    var step := TrackMarkStep(h, marks);
    var newValue := value + step * direction.Sign();
    if newValue <= h.range.upper && newValue >= h.range.lower then Move(newValue, true)
    else Move(value, false)
  }

  /** A handled move goes in the requested direction, and a valid value stays
      valid whether or not the move is handled. */
  lemma MovePreservesValidity(h: Helper, value: real, direction: Movement, marks: MarkInterval)
    requires Valid(h) && IsValidSliderValue(h, value)
    ensures var m := MoveSlider(h, value, direction, marks);
      && IsValidSliderValue(h, m.value)
      && (m.handled && direction == Right ==> m.value > value)
      && (m.handled && direction == Left ==> m.value < value)
  {
  }

  /** A move to the right undone by a move to the left returns to the start,
      as long as both are handled. */
  lemma MoveRightThenLeft(h: Helper, value: real, marks: MarkInterval)
    requires Valid(h)
    ensures var there := MoveSlider(h, value, Right, marks);
      var back := MoveSlider(h, there.value, Left, marks);
      there.handled && IsValidSliderValue(h, value) ==> back.handled && back.value == value
  {
  }
}

=== FILE: legacy_slider_style.dfy ===
/** The style record of the `Styles` revision. It derives the effective mark
    size exactly as the later revision does; its shadow takes the tint colour
    rather than gray, and it offers the set helpers `containsTrackMarks` and
    `containsTintBar`. */
module LegacySliderStyle {
  import opened Common
  import opened Indicators

  datatype Shadow = Radius(r: real)
  const NoShadow: Shadow := Radius(0.0)

  datatype ShadowColour = Clear | TrackTint

  datatype Style = Style(
    indicators: seq<Indicator>,
    trackHeight: real,
    trackMarks: MarkInterval,
    trackMarkWidth: Option<real>,
    trackMarkHeight: Option<real>,
    labelMarks: MarkInterval,
    tintCentredOn: CentredOn,
    trackShadow: Shadow,
    thumbWidth: real,
    thumbHeight: real)

  /** `setTrackMarks`: replaces the mark interval and nothing else. */
  function SetTrackMarks(s: Style, m: MarkInterval): (t: Style)
    ensures t.trackMarks == m
    ensures t.(trackMarks := s.trackMarks) == s
  {
    s.(trackMarks := m)
  }

  /** `i_trackMarkWidth` and `i_trackMarkHeight`. */
  function MarkWidth(s: Style): real
  {
    DefaultedMarkWidth(s.trackMarkWidth, s.trackHeight)
  }

  function MarkHeight(s: Style): real
  {
    DefaultedMarkHeight(s.trackMarkHeight, s.trackHeight, s.thumbHeight)
  }

  function ShadowRadius(s: Style): real
  {
    match s.trackShadow
    case Radius(r) => r
  }

  /** `trackShadowColor`: the tint colour exactly when the radius is positive. */
  function ShadowColourOf(s: Style): (c: ShadowColour)
    ensures c == TrackTint <==> s.trackShadow.r > 0.0
  {
    if ShadowRadius(s) > 0.0 then TrackTint else Clear
  }

  /** `dynamicTrackMarks`: the scan of `Indicators.DynamicTrackMarks`. */
  function Dynamic(s: Style): Option<(real, real)>
  {
    DynamicTrackMarks(s.indicators)
  }
}

=== FILE: mark_sequence.dfy ===
/** The evenly spaced value lists both helper revisions produce for track
    marks and labels: start at a bound and keep adding the interval while the
    running value does not exceed the end bound. With exact reals the running
    value after k additions is exactly `start + k * interval`. */
module MarkSequence {

  predicate StrictlyAscending(s: seq<real>)
  {
    forall i, j :: 0 <= i < j < |s| ==> s[i] < s[j]
  }

  lemma MulMonotone(a: real, b: real, c: real)
    requires a <= b && c >= 0.0
    ensures a * c <= b * c
  {
  }

  /** An offset within a span stays within the scaled span. */
  lemma ScaledWithin(d: real, span: real, s: real)
    ensures s >= 0.0 && 0.0 <= d <= span ==> 0.0 <= d * s <= span * s
  {
    if s >= 0.0 && 0.0 <= d <= span {
      MulMonotone(0.0, d, s);
      MulMonotone(d, span, s);
    }
  }

  /** A non-zero factor cancels. */
  lemma MulCancel(a: real, b: real, c: real)
    requires c != 0.0 && a * c == b * c
    ensures a == b
  {
    assert (a - b) * c == 0.0;
  }

  lemma MulStrict(a: real, b: real, c: real)
    requires a < b && c > 0.0
    ensures a * c < b * c
  {
  }

  /** How many of `start, start + interval, ...` do not exceed `end`. */
  function Count(start: real, interval: real, end: real): (n: nat)
    requires interval > 0.0
    ensures n > 0 ==> start + (n - 1) as real * interval <= end
    ensures start + n as real * interval > end
  {
    if end < start then 0
    else
      var k := ((end - start) / interval).Floor;
      FloorBracket(end - start, interval);
      k + 1
  }

  /** `floor(d / c)` multiples of `c` fit in `d`, one more does not. */
  lemma FloorBracket(d: real, c: real)
    requires c > 0.0
    ensures var k := (d / c).Floor;
      (k as real) * c <= d < ((k + 1) as real) * c
  {
    var q := d / c;
    var k := q.Floor;
    assert q * c == d;
    MulMonotone(k as real, q, c);
    var k1 := (k + 1) as real;
    assert k1 == k as real + 1.0;
    assert q < k1;
    MulStrict(q, k1, c);
    assert d < k1 * c;
  }

  /** Reference definition: the arithmetic progression from `start` with step
      `interval` cut off after the last term not above `end`; no terms when the
      interval is zero. */
  function Progression(start: real, interval: real, end: real): (r: seq<real>)
    requires interval >= 0.0
    ensures interval == 0.0 ==> r == []
    ensures interval > 0.0 ==> |r| == Count(start, interval, end)
    ensures forall k :: 0 <= k < |r| ==> r[k] == start + k as real * interval
  {
    if interval == 0.0 then []
    else seq(Count(start, interval, end), k => start + k as real * interval)
  }

  /** The progression is strictly ascending, starts at `start`, stays within
      `[start, end]`, and is maximal: the next term would exceed `end`. In
      particular `end` itself is the last term when it is hit exactly. */
  lemma ProgressionShape(start: real, interval: real, end: real)
    requires interval > 0.0
    ensures var r := Progression(start, interval, end);
      && StrictlyAscending(r)
      && (forall k :: 0 <= k < |r| ==> start <= r[k] <= end)
      && (|r| > 0 <==> start <= end)
      && (|r| > 0 ==> r[0] == start)
      && start + |r| as real * interval > end
  {
    ProgressionAscends(start, interval, end);
    ProgressionWithin(start, interval, end);
  }

  lemma ProgressionAscends(start: real, interval: real, end: real)
    requires interval > 0.0
    ensures StrictlyAscending(Progression(start, interval, end))
  {
    var r := Progression(start, interval, end);
    forall i, j | 0 <= i < j < |r|
      ensures r[i] < r[j]
    {
      assert r[i] == start + (i as real) * interval && r[j] == start + (j as real) * interval;
      TermsAscend(start, interval, i, j);
    }
  }

  lemma ProgressionWithin(start: real, interval: real, end: real)
    requires interval > 0.0
    ensures var r := Progression(start, interval, end);
      forall k :: 0 <= k < |r| ==> start <= r[k] <= end
  {
    var r := Progression(start, interval, end);
    forall k | 0 <= k < |r|
      ensures start <= r[k] <= end
    {
      TermBounded(start, interval, end, k);
    }
  }

  lemma TermsAscend(start: real, interval: real, i: nat, j: nat)
    requires interval > 0.0 && i < j
    ensures start + (i as real) * interval < start + (j as real) * interval
  {
    MulStrict(i as real, j as real, interval);
  }

  lemma TermBounded(start: real, interval: real, end: real, k: nat)
    requires interval > 0.0
    requires k < Count(start, interval, end)
    ensures start <= start + (k as real) * interval <= end
  {
    var n := Count(start, interval, end);
    MulMonotone(0.0, k as real, interval);
    assert n > 0 && k as real <= (n - 1) as real;
    MulMonotone(k as real, (n - 1) as real, interval);
    assert start + (n - 1) as real * interval <= end;
  }

  /** When `end` is itself a term `start + m * interval`, the progression holds
      exactly the terms 0..m, so its last term is `end`. */
  lemma ProgressionHitsEnd(start: real, interval: real, m: nat)
    requires interval > 0.0
    ensures var r := Progression(start, interval, start + m as real * interval);
      |r| == m + 1 && r[m] == start + m as real * interval
  {
    var end := start + m as real * interval;
    var n := Count(start, interval, end);
    if n < m + 1 {
      assert (n as real) * interval <= (m as real) * interval;
    } else if n > m + 1 {
      assert ((n - 1) as real) * interval > (m as real) * interval;
    }
  }

  /** The loop of the source, accumulating `next += interval` while
      `next <= end`. The source only reaches the loop with a non-zero
      interval; a negative one would never stop. */
  method Accumulate(start: real, interval: real, end: real) returns (marks: seq<real>)
    requires interval > 0.0
    ensures marks == Progression(start, interval, end)
  {
    marks := [];
    var next := start;
    while next <= end
      invariant next == start + |marks| as real * interval
      invariant forall k :: 0 <= k < |marks| ==> marks[k] == start + k as real * interval
      invariant |marks| <= Count(start, interval, end)
      decreases Count(start, interval, end) - |marks|
    {
      if |marks| == Count(start, interval, end) {
        assert false;
      }
      marks := marks + [next];
      next := next + interval;
    }
  }
}

=== FILE: slider_helper.dfy ===
/** The current slider helper (`Helpers/SliderHelper.swift`): it owns the
    value range, the measured track geometry and the drag state, converts
    between values and track positions or arc angles, lists the values where
    marks and labels go, and commits new values with clamping and optional
    snapping.

    The helper object is mutable in the source; here it is an immutable record
    and every mutating operation returns the updated record. Angles are in
    degrees (a full turn is 360): the source works in radians, and the
    conversion factor cancels in every ratio used below. The style type read by
    this revision is not part of this model; `HelperStyle` holds exactly the
    fields the helper and its views read. */
module SliderHelper {
  import opened Common
  import MarkSequence

  const FullTurn: real := 360.0

  datatype Orientation = Linear | Radial

  /** The indicator cases this revision tests for. */
  datatype Indicator = Thumb | TintedTrack | TintedTrackMarks

  datatype TrackMarkStyle = Regular | DynamicSizing(percentOfTrack: real, percentGrowth: real)

  /** Only whether the track is transparent matters to the helper. */
  datatype TrackColour = Clear | ClearIsh | Coloured

  datatype HelperStyle = HelperStyle(
    orientation: Orientation,
    indicators: set<Indicator>,
    thumbWidth: real,
    trackHeight: real,
    trackMarkWidth: real,
    trackMarkHeight: real,
    trackMarkSnapping: bool,
    trackMarkInterval: MarkInterval,
    labelInterval: MarkInterval,
    trackMarkStyle: TrackMarkStyle,
    trackColour: TrackColour,
    offsetAngle: real,
    tintCentredOn: CentredOn)

  /** `(percent, growth)` of dynamically sized marks, if the style has them. */
  function DynamicTrackMarks(s: HelperStyle): Option<(real, real)>
  {
    match s.trackMarkStyle
    case DynamicSizing(p, g) => Some((p, g))
    case Regular => None
  }

  datatype Helper = Helper(
    range: Range,
    isInt: bool,
    step: Option<real>,
    style: HelperStyle,
    lastSliderValue: real,
    centre: Point,
    outerRadius: real,
    innerRadius: real,
    trackLength: real,
    scaling: real,
    isDragging: bool,
    dragStarted: bool,
    trackBuffer: real)

  /** Every helper the source can build has a non-empty range. */
  predicate Valid(h: Helper) { h.range.Valid() }

  /** `init`: refuses a range whose lower bound is not below its upper bound;
      otherwise starts at rest with the last value at the lower bound and the
      placeholder geometry the source declares. `initial` stands for the
      source's `.classic` style. */
  function Init(range: Range, isInt: bool, step: Option<real>, initial: HelperStyle): (c: Construction<Helper>)
    ensures c.Built? <==> range.lower < range.upper
    ensures c.Built? ==>
      && Valid(c.helper)
      && c.helper.range == range && c.helper.isInt == isInt && c.helper.step == step
      && c.helper.style == initial
      && c.helper.lastSliderValue == range.lower
      && !c.helper.isDragging && !c.helper.dragStarted
  {
    if !(range.lower < range.upper) then InvalidRange
    else Built(Helper(range, isInt, step, initial, range.lower, Point(100.0, 100.0),
                      200.0, 100.0, 200.0, 1.0, false, false, 21.0))
  }

  /** The track height `updateStyle` settles on: a transparent track is made
      as tall as the tallest mark (grown marks when dynamic), otherwise tinted
      marks make the track as tall as a mark. */
  function NormalisedTrackHeight(s: HelperStyle): real
  {
    if s.trackColour == Clear then
      match s.trackMarkStyle
      case DynamicSizing(_, growth) => s.trackMarkHeight * growth
      case Regular => s.trackMarkHeight
    else if TintedTrackMarks in s.indicators then s.trackMarkHeight
    else s.trackHeight
  }

  /** `updateStyle`: adopts the new style after normalising it. The source
      rewrites the fields in sequence; since each field is written by rules
      that read only fields no rule writes, every field is given here by its
      final value. The missing indicator warning is a log call and has no
      effect. `onMacOS` selects the source's macOS-only branch, which also
      forces a 10 point capsule thumb and marks at every step (the symbol and
      colours are not modelled). */
  function UpdateStyle(h: Helper, style: HelperStyle, onMacOS: bool): (r: Helper)
    ensures r == h.(style := r.style)
    ensures r.style.thumbWidth ==
      (if onMacOS && h.step.Some? then 10.0 else if Thumb in style.indicators then style.thumbWidth else 0.0)
    ensures style.trackColour == Clear ==>
      r.style.trackHeight ==
        (if style.trackMarkStyle.DynamicSizing? then style.trackMarkHeight * style.trackMarkStyle.percentGrowth
         else style.trackMarkHeight)
    ensures style.trackColour != Clear && TintedTrackMarks in style.indicators ==>
      r.style.trackHeight == style.trackMarkHeight
    ensures style.trackColour != Clear && TintedTrackMarks !in style.indicators ==>
      r.style.trackHeight == style.trackHeight
    ensures r.style.trackMarkSnapping == (style.trackMarkSnapping || h.step.Some?)
    ensures r.style.trackColour == (if style.trackColour == Clear then ClearIsh else style.trackColour)
    ensures r.style.trackMarkInterval ==
      (if onMacOS && h.step.Some? then Every(h.step.value) else style.trackMarkInterval)
    ensures r.style.(thumbWidth := style.thumbWidth, trackHeight := style.trackHeight,
                     trackMarkSnapping := style.trackMarkSnapping, trackColour := style.trackColour,
                     trackMarkInterval := style.trackMarkInterval) == style
  {
    var macStep := onMacOS && h.step.Some?;
    h.(style := style.(
      thumbWidth := if macStep then 10.0 else if Thumb in style.indicators then style.thumbWidth else 0.0,
      trackHeight := NormalisedTrackHeight(style),
      trackMarkSnapping := style.trackMarkSnapping || h.step.Some?,
      trackMarkInterval := if macStep then Every(h.step.value) else style.trackMarkInterval,
      trackColour := if style.trackColour == Clear then ClearIsh else style.trackColour))
  }

  /** Normalising an already normalised style changes nothing, except when a
      transparent track with tinted, dynamically growing marks had its height
      set from the grown mark: the second pass sees a non-transparent track and
      the tinted-marks rule shrinks it back to one mark height. */
  lemma UpdateStyleIdempotent(h: Helper, style: HelperStyle, onMacOS: bool)
    ensures var once := UpdateStyle(h, style, onMacOS);
      var twice := UpdateStyle(once, once.style, onMacOS);
      twice == once <==>
        !(style.trackColour == Clear && TintedTrackMarks in style.indicators
          && style.trackMarkStyle.DynamicSizing? && style.trackMarkStyle.percentGrowth != 1.0
          && style.trackMarkHeight != 0.0)
  {
    var once := UpdateStyle(h, style, onMacOS);
    var twice := UpdateStyle(once, once.style, onMacOS);
    if style.trackColour == Clear && TintedTrackMarks in style.indicators
       && style.trackMarkStyle.DynamicSizing? && style.trackMarkStyle.percentGrowth != 1.0
       && style.trackMarkHeight != 0.0
    {
      var g := style.trackMarkStyle.percentGrowth;
      assert once.style.trackHeight == style.trackMarkHeight * g;
      assert twice.style.trackHeight == style.trackMarkHeight;
      assert style.trackMarkHeight * g - style.trackMarkHeight == style.trackMarkHeight * (g - 1.0);
      assert style.trackMarkHeight * (g - 1.0) != 0.0;
    }
  }

  /** `setTrackSize`: the geometry for a measured frame. */
  /** What the linear branch of `setTrackSize` leaves: a buffer of the wider
      of thumb and mark, and the rest of the width (never negative) as the
      track; the radii are untouched. */
  predicate LinearLayout(h: Helper, rect: Rect, r: Helper)
  {
    && r.trackBuffer >= h.style.thumbWidth && r.trackBuffer >= h.style.trackMarkWidth
    && (r.trackBuffer == h.style.thumbWidth || r.trackBuffer == h.style.trackMarkWidth)
    && r.trackLength >= 0.0
    && (rect.width >= r.trackBuffer ==> r.trackLength + r.trackBuffer == rect.width)
    && (rect.width < r.trackBuffer ==> r.trackLength == 0.0)
    && r.outerRadius == h.outerRadius && r.innerRadius == h.innerRadius
  }

  /** What the radial branch leaves: no buffer, an arc of a full turn less the
      gap, an outer radius of at most half the smaller side, and a ring as
      thick as the marks (or the whole disc when the marks are taller). */
  predicate RadialLayout(h: Helper, rect: Rect, r: Helper)
  {
    && r.trackBuffer == 0.0
    && r.trackLength == FullTurn - h.style.offsetAngle
    && r.outerRadius >= 0.0
    && r.outerRadius <= Max(0.0, Min(rect.width, rect.height) / 2.0)
    && r.outerRadius - r.innerRadius == Min(Max(0.0, Min(rect.width, rect.height) / 2.0), h.style.trackMarkHeight)
  }

  function SetTrackSize(h: Helper, rect: Rect): (r: Helper)
    requires Valid(h)
    ensures r == h.(centre := r.centre, trackBuffer := r.trackBuffer, trackLength := r.trackLength,
                    scaling := r.scaling, outerRadius := r.outerRadius, innerRadius := r.innerRadius)
    ensures r.centre == Point(rect.MidX(), rect.MidY())
    ensures r.scaling * h.range.Span() == r.trackLength
    ensures h.style.orientation == Linear ==> LinearLayout(h, rect, r)
    ensures h.style.orientation == Radial ==> RadialLayout(h, rect, r)
  {
    match h.style.orientation
    case Linear => LinearTrackSize(h, rect)
    case Radial => RadialTrackSize(h, rect)
  }

  /** The linear branch of `setTrackSize`. */
  function LinearTrackSize(h: Helper, rect: Rect): (r: Helper)
    requires Valid(h)
    ensures r == h.(centre := Point(rect.MidX(), rect.MidY()), trackBuffer := r.trackBuffer,
                    trackLength := r.trackLength, scaling := r.scaling)
    ensures r.scaling * h.range.Span() == r.trackLength
    ensures LinearLayout(h, rect, r)
  {
    var buffer := Max(h.style.thumbWidth, h.style.trackMarkWidth);
    var length := Max(0.0, rect.width - buffer);
    assert length / h.range.Span() * h.range.Span() == length;
    h.(centre := Point(rect.MidX(), rect.MidY()), trackBuffer := buffer, trackLength := length,
       scaling := length / h.range.Span())
  }

  /** The radial branch of `setTrackSize`: both radii shrink by half the
      mark-track height difference when that fits. */
  function RadialTrackSize(h: Helper, rect: Rect): (r: Helper)
    requires Valid(h)
    ensures r == h.(centre := Point(rect.MidX(), rect.MidY()), trackBuffer := 0.0,
                    trackLength := FullTurn - h.style.offsetAngle, scaling := r.scaling,
                    outerRadius := r.outerRadius, innerRadius := r.innerRadius)
    ensures r.scaling * h.range.Span() == r.trackLength
    ensures RadialLayout(h, rect, r)
  {
    var length := FullTurn - h.style.offsetAngle;
    var outer := Max(0.0, Min(rect.width, rect.height) * 0.5);
    var inner := Max(0.0, outer - h.style.trackMarkHeight);
    var heightDifference := 0.5 * (h.style.trackMarkHeight - h.style.trackHeight);
    var shrink := heightDifference > 0.0 && outer > heightDifference;
    assert length / h.range.Span() * h.range.Span() == length;
    h.(centre := Point(rect.MidX(), rect.MidY()), trackBuffer := 0.0, trackLength := length,
       scaling := length / h.range.Span(),
       outerRadius := if shrink then outer - heightDifference else outer,
       innerRadius := if shrink then inner - heightDifference else inner)
  }



  /** The radii move in only when marks are taller than the track, and only if
      the outer radius can absorb half the difference. */
  lemma RadialShrinkRule(h: Helper, rect: Rect)
    requires Valid(h) && h.style.orientation == Radial
    ensures var outer := Max(0.0, Min(rect.width, rect.height) / 2.0);
      var d := 0.5 * (h.style.trackMarkHeight - h.style.trackHeight);
      var r := SetTrackSize(h, rect);
      (r.outerRadius < outer <==> d > 0.0 && outer > d)
      && (r.outerRadius < outer ==> r.outerRadius == outer - d)
  {
  }

  /** `sliderPosition(of:)`: the x offset of a value on a linear track. With
      a forward scaling, values in range land on the track, which starts half
      a buffer in and is scaling × span long. */
  function SliderPosition(h: Helper, v: real): (x: real)
    ensures h.scaling >= 0.0 && h.range.Contains(v) ==>
      h.trackBuffer * 0.5 <= x <= h.trackBuffer * 0.5 + h.range.Span() * h.scaling
  {
    MarkSequence.ScaledWithin(v - h.range.lower, h.range.Span(), h.scaling);
    h.trackBuffer * 0.5 + (v - h.range.lower) * h.scaling
  }

  /** `angle(of:)`: the clockwise angle of a value on a radial track. With a
      forward scaling, values in range land on the arc, which starts at the
      top and sweeps scaling × span. */
  function Angle(h: Helper, v: real): (a: real)
    ensures h.scaling >= 0.0 && h.range.Contains(v) ==> 0.0 <= a <= h.range.Span() * h.scaling
  {
    MarkSequence.ScaledWithin(v - h.range.lower, h.range.Span(), h.scaling);
    (v - h.range.lower) * h.scaling
  }

  /** `getSliderValue(of:)`: the value at an x offset, the one whose track
      position is that offset. The source divides by the scaling, so it is
      only meaningful once the track has a length. */
  function GetSliderValue(h: Helper, x: real): (v: real)
    requires h.scaling != 0.0
    ensures SliderPosition(h, v) == x
  {
    var q := (x - h.trackBuffer * 0.5) / h.scaling;
    assert q * h.scaling == x - h.trackBuffer * 0.5;
    var v := h.range.lower + q;
    assert SliderPosition(h, v) == h.trackBuffer * 0.5 + q * h.scaling;
    v
  }

  /** A value survives the trip to a track position and back. */
  lemma PositionRoundTrip(h: Helper, v: real)
    requires h.scaling != 0.0
    ensures GetSliderValue(h, SliderPosition(h, v)) == v
  {
    var x := SliderPosition(h, v);
    var w := GetSliderValue(h, x);
    assert h.trackBuffer * 0.5 + (w - h.range.lower) * h.scaling == x;
    MarkSequence.MulCancel(w - h.range.lower, v - h.range.lower, h.scaling);
  }

  /** A track position survives the trip to a value and back. */
  lemma ValueRoundTrip(h: Helper, x: real)
    requires h.scaling != 0.0
    ensures SliderPosition(h, GetSliderValue(h, x)) == x
  {
    assert (x - h.trackBuffer * 0.5) / h.scaling * h.scaling == x - h.trackBuffer * 0.5;
  }

  /** After a linear layout the range maps onto the track: the lower bound
      sits half a buffer from the left edge, and the upper bound half a buffer
      from the right edge when the frame is wider than the buffer. */
  lemma LinearTrackSpansFrame(h: Helper, rect: Rect)
    requires Valid(h) && h.style.orientation == Linear
    requires rect.width >= Max(h.style.thumbWidth, h.style.trackMarkWidth)
    ensures var g := SetTrackSize(h, rect);
      && SliderPosition(g, h.range.lower) == g.trackBuffer / 2.0
      && SliderPosition(g, h.range.upper) + g.trackBuffer / 2.0 == rect.width
  {
    var g := SetTrackSize(h, rect);
    assert SliderPosition(g, h.range.upper) == g.trackBuffer * 0.5 + h.range.Span() * g.scaling;
  }

  /** After a radial layout the upper bound lands at the start of the gap. */
  lemma RadialArcEndsAtGap(h: Helper, rect: Rect)
    requires Valid(h) && h.style.orientation == Radial
    ensures var g := SetTrackSize(h, rect);
      Angle(g, h.range.lower) == 0.0 && Angle(g, h.range.upper) == FullTurn - h.style.offsetAngle
  {
    var g := SetTrackSize(h, rect);
    assert Angle(g, h.range.upper) == h.range.Span() * g.scaling;
  }

  /** The second half of `getAngleValue`, AS WRITTEN: the clockwise angle of
      the pointer is an input (the arcsine that produces it is not modelled).
      In the gap the nearer end wins; on the arc the value is `angle / scaling`
      clamped into the range. It omits the lower bound, see
      `AngleValueIgnoresLowerBound`. */
  function AngleValueAsWritten(h: Helper, angle: real): (r: real)
    requires Valid(h)
    requires angle <= FullTurn - h.style.offsetAngle ==> h.scaling != 0.0
    ensures h.range.Contains(r)
    ensures angle > FullTurn - h.style.offsetAngle ==>
      (r == h.range.lower <==> FullTurn - angle < h.style.offsetAngle / 2.0)
    ensures angle > FullTurn - h.style.offsetAngle ==> (r == h.range.lower || r == h.range.upper)
    ensures angle <= FullTurn - h.style.offsetAngle && h.range.Contains(angle / h.scaling) ==>
      r == angle / h.scaling
  {
    if angle > FullTurn - h.style.offsetAngle then
      if FullTurn - angle < h.style.offsetAngle / 2.0 then h.range.lower else h.range.upper
    else
      var result := angle / h.scaling;
      if result > h.range.upper then h.range.upper
      else if result < h.range.lower then h.range.lower
      else result
  }

  /** The formula as written inverts `Angle` only for a range starting at 0:
      on the range 10...20 the middle value 15 maps to an angle that reads
      back as the lower bound 10. */
  lemma AngleValueIgnoresLowerBound(h: Helper)
    requires h.range == Range(10.0, 20.0) && h.style.offsetAngle == 0.0 && h.scaling == 36.0
    ensures Angle(h, 15.0) == 180.0
    ensures AngleValueAsWritten(h, Angle(h, 15.0)) == 10.0
  {
  }

  /** On a range starting at 0 the formula as written and the corrected one
      agree. */
  lemma AngleValueFromZero(h: Helper, angle: real)
    requires Valid(h)
    requires angle <= FullTurn - h.style.offsetAngle ==> h.scaling != 0.0
    ensures h.range.lower == 0.0 ==> AngleValueAsWritten(h, angle) == AngleValue(h, angle)
  {
  }

  /** `getAngleValue` as evidently intended: the value is the lower bound plus
      `angle / scaling`, clamped into the range, with the same gap rule. */
  function AngleValue(h: Helper, angle: real): (r: real)
    requires Valid(h)
    requires angle <= FullTurn - h.style.offsetAngle ==> h.scaling != 0.0
    ensures h.range.Contains(r)
    ensures angle > FullTurn - h.style.offsetAngle ==>
      (r == h.range.lower <==> FullTurn - angle < h.style.offsetAngle / 2.0)
    ensures angle > FullTurn - h.style.offsetAngle ==> (r == h.range.lower || r == h.range.upper)
    ensures angle <= FullTurn - h.style.offsetAngle && h.range.Contains(h.range.lower + angle / h.scaling) ==>
      r == h.range.lower + angle / h.scaling
  {
    if angle > FullTurn - h.style.offsetAngle then
      if FullTurn - angle < h.style.offsetAngle / 2.0 then h.range.lower else h.range.upper
    else
      var result := h.range.lower + angle / h.scaling;
      if result > h.range.upper then h.range.upper
      else if result < h.range.lower then h.range.lower
      else result
  }

  /** On a radially laid-out track every value in range survives the trip to
      its angle and back through the corrected formula. */
  lemma AngleRoundTrip(h: Helper, v: real)
    requires Valid(h) && h.range.Contains(v)
    requires h.scaling > 0.0 && h.scaling * h.range.Span() == FullTurn - h.style.offsetAngle
    ensures AngleValue(h, Angle(h, v)) == v
  {
    var a := Angle(h, v);
    assert a == (v - h.range.lower) * h.scaling;
    assert a / h.scaling == v - h.range.lower;
  }

  /** Which list `trackValues(for:)` produces. */
  datatype TrackValueKind = TrackMarks | TrackLabels | TrackAngles

  /** The spacing of each list. Auto marks are a twentieth of the span, auto
      labels half of it (begin, middle, end). The auto spacing of marks around
      an arc comes from an arctangent of the mark footprint and is an input. */
  function Increment(h: Helper, kind: TrackValueKind, autoAngle: real): (i: real)
    requires Valid(h)
    ensures kind == TrackMarks && h.style.trackMarkInterval == Auto ==> i * 20.0 == h.range.Span()
    ensures kind == TrackLabels && h.style.labelInterval == Auto ==> i * 2.0 == h.range.Span()
    ensures kind == TrackAngles && h.style.trackMarkInterval == Auto ==> i == autoAngle
    ensures kind == TrackLabels && h.style.labelInterval.Every? ==> i == h.style.labelInterval.step
    ensures kind != TrackLabels && h.style.trackMarkInterval.Every? ==> i == h.style.trackMarkInterval.step
  {
    match kind
    case TrackLabels =>
      (match h.style.labelInterval
       case Every(i) => i
       case Auto => h.range.Span() * 0.5)
    case TrackMarks =>
      (match h.style.trackMarkInterval
       case Every(i) => i
       case Auto => h.range.Span() / 20.0)
    case TrackAngles =>
      (match h.style.trackMarkInterval
       case Every(i) => i
       case Auto => autoAngle)
  }

  function StartValue(h: Helper, kind: TrackValueKind): real
  {
    if kind == TrackAngles then 0.0 else h.range.lower
  }

  function MaxValue(h: Helper, kind: TrackValueKind): real
  {
    if kind == TrackAngles then FullTurn - h.style.offsetAngle else h.range.upper
  }

  /** The inputs for which the source's loop stops: a negative spacing would
      keep adding forever. */
  predicate Terminates(h: Helper, kind: TrackValueKind, autoAngle: real)
    requires Valid(h)
  {
    Increment(h, kind, autoAngle) >= 0.0
  }

  /** `trackValues(for:)`: empty for a zero spacing, otherwise the ascending
      list `start, start + i, ...` of every term up to and including the
      maximum. */
  function TrackValues(h: Helper, kind: TrackValueKind, autoAngle: real): (r: seq<real>)
    requires Valid(h) && Terminates(h, kind, autoAngle)
    ensures Increment(h, kind, autoAngle) == 0.0 ==> r == []
    ensures MarkSequence.StrictlyAscending(r)
    ensures forall k :: 0 <= k < |r| ==>
      r[k] == StartValue(h, kind) + k as real * Increment(h, kind, autoAngle)
    ensures forall k :: 0 <= k < |r| ==> StartValue(h, kind) <= r[k] <= MaxValue(h, kind)
    ensures Increment(h, kind, autoAngle) > 0.0 ==>
      StartValue(h, kind) + |r| as real * Increment(h, kind, autoAngle) > MaxValue(h, kind)
  {
    var interval := Increment(h, kind, autoAngle);
    var start := StartValue(h, kind);
    var end := MaxValue(h, kind);
    if interval == 0.0 then []
    else
      MarkSequence.ProgressionShape(start, interval, end);
      MarkSequence.Progression(start, interval, end)
  }

  /** The source's loop computes exactly `TrackValues`. */
  method ComputeTrackValues(h: Helper, kind: TrackValueKind, autoAngle: real) returns (marks: seq<real>)
    requires Valid(h) && Terminates(h, kind, autoAngle)
    ensures marks == TrackValues(h, kind, autoAngle)
  {
    var interval := Increment(h, kind, autoAngle);
    if interval == 0.0 {
      return [];
    }
    marks := MarkSequence.Accumulate(StartValue(h, kind), interval, MaxValue(h, kind));
  }

  /** Automatic marks: 21 marks, from the lower to the upper bound. */
  lemma AutoMarks(h: Helper, autoAngle: real)
    requires Valid(h) && h.style.trackMarkInterval == Auto
    ensures var m := TrackValues(h, TrackMarks, autoAngle);
      |m| == 21 && m[0] == h.range.lower && m[20] == h.range.upper
  {
    var i := h.range.Span() / 20.0;
    MarkSequence.ProgressionHitsEnd(h.range.lower, i, 20);
    assert h.range.lower + 20 as real * i == h.range.upper;
  }

  /** Automatic labels: the begin, the middle and the end of the range. */
  lemma AutoLabels(h: Helper, autoAngle: real)
    requires Valid(h) && h.style.labelInterval == Auto
    ensures TrackValues(h, TrackLabels, autoAngle) ==
      [h.range.lower, (h.range.lower + h.range.upper) / 2.0, h.range.upper]
  {
    var i := h.range.Span() * 0.5;
    MarkSequence.ProgressionHitsEnd(h.range.lower, i, 2);
    assert h.range.lower + 2 as real * i == h.range.upper;
  }

  /** `TrackMarks.none` (a zero interval) produces no marks. */
  lemma NoMarksAreEmpty(h: Helper, autoAngle: real)
    requires Valid(h) && h.style.trackMarkInterval == NoMarks
    ensures TrackValues(h, TrackMarks, autoAngle) == []
    ensures TrackValues(h, TrackAngles, autoAngle) == []
  {
  }

  /** Scan of consecutive pairs for the first `m[i] <= v < m[i+1]`. */
  function ClosestFrom(m: seq<real>, v: real, i: nat): (r: real)
    requires i <= |m|
    ensures r == v || r in m
    decreases |m| - i
  {
    if i + 1 >= |m| then v
    else if m[i] <= v && v < m[i + 1] then
      if v - m[i] < m[i + 1] - v then m[i] else m[i + 1]
    else ClosestFrom(m, v, i + 1)
  }

  /** `closestMark(to:)` over a given list of marks. */
  function ClosestIn(m: seq<real>, v: real): (r: real)
    ensures r == v || r in m
  {
    if |m| == 0 then v else ClosestFrom(m, v, 0)
  }

  /** On ascending marks the scan stops at the one pair that brackets `v` and
      picks its nearer end, the upper one on a tie. */
  lemma {:induction false} ClosestFromBracket(m: seq<real>, v: real, i: nat, j: nat)
    requires MarkSequence.StrictlyAscending(m)
    requires i <= j && j + 1 < |m| && m[j] <= v < m[j + 1]
    ensures var r := ClosestFrom(m, v, i);
      && (r == m[j] || r == m[j + 1])
      && Abs(r - v) <= Abs(m[j] - v) && Abs(r - v) <= Abs(m[j + 1] - v)
      && (Abs(m[j] - v) == Abs(m[j + 1] - v) ==> r == m[j + 1])
    decreases j - i
  {
    if i < j {
      assert m[i + 1] <= m[j];
      ClosestFromBracket(m, v, i + 1, j);
    }
  }

  /** With no bracketing pair from `i` on, the scan returns `v` unchanged. */
  lemma {:induction false} ClosestFromUnbracketed(m: seq<real>, v: real, i: nat)
    requires i <= |m|
    requires forall k :: i <= k && k + 1 < |m| ==> !(m[k] <= v < m[k + 1])
    ensures ClosestFrom(m, v, i) == v
    decreases |m| - i
  {
    if i + 1 < |m| {
      ClosestFromUnbracketed(m, v, i + 1);
    }
  }

  /** `closestMark` leaves `v` alone when there are no marks or `v` lies
      outside `[first, last)`. */
  lemma ClosestOutside(m: seq<real>, v: real)
    requires MarkSequence.StrictlyAscending(m)
    requires |m| == 0 || v < m[0] || m[|m| - 1] <= v
    ensures ClosestIn(m, v) == v
  {
    if |m| > 0 {
      forall k | 0 <= k && k + 1 < |m|
        ensures !(m[k] <= v < m[k + 1])
      {
        assert m[0] <= m[k] && m[k + 1] <= m[|m| - 1];
      }
      ClosestFromUnbracketed(m, v, 0);
    }
  }

  /** Inside `[first, last)` the result is the nearest of ALL marks, not just
      of the bracketing pair. */
  lemma ClosestIsNearest(m: seq<real>, v: real, j: nat)
    requires MarkSequence.StrictlyAscending(m)
    requires j + 1 < |m| && m[j] <= v < m[j + 1]
    ensures ClosestIn(m, v) == m[j] || ClosestIn(m, v) == m[j + 1]
    ensures forall k :: 0 <= k < |m| ==> Abs(ClosestIn(m, v) - v) <= Abs(m[k] - v)
  {
    ClosestFromBracket(m, v, 0, j);
    forall k | 0 <= k < |m|
      ensures Abs(ClosestIn(m, v) - v) <= Abs(m[k] - v)
    {
      if k < j { assert m[k] < m[j]; }
      else if k > j + 1 { assert m[j + 1] < m[k]; }
    }
  }

  /** Snapping a mark value returns that same mark. */
  lemma ClosestIdempotent(m: seq<real>, k: nat)
    requires MarkSequence.StrictlyAscending(m)
    requires k < |m|
    ensures ClosestIn(m, m[k]) == m[k]
  {
    if k + 1 < |m| {
      ClosestFromBracket(m, m[k], 0, k);
    } else {
      ClosestOutside(m, m[k]);
    }
  }

  /** Snapping the result of a snap changes nothing. */
  lemma ClosestStable(m: seq<real>, v: real)
    requires MarkSequence.StrictlyAscending(m)
    ensures ClosestIn(m, ClosestIn(m, v)) == ClosestIn(m, v)
  {
    var r := ClosestIn(m, v);
    if r == v {
      if |m| == 0 || v < m[0] || m[|m| - 1] <= v {
        ClosestOutside(m, v);
      } else {
        var j := BracketOf(m, v);
        ClosestIsNearest(m, v, j);
        ClosestIdempotentAt(m, r);
      }
    } else {
      ClosestIdempotentAt(m, r);
    }
  }

  lemma ClosestIdempotentAt(m: seq<real>, x: real)
    requires MarkSequence.StrictlyAscending(m)
    requires x in m
    ensures ClosestIn(m, x) == x
  {
    var k :| 0 <= k < |m| && m[k] == x;
    ClosestIdempotent(m, k);
  }

  /** The index of the pair bracketing a value inside `[first, last)`. */
  lemma BracketOf(m: seq<real>, v: real) returns (j: nat)
    requires |m| > 0 && m[0] <= v < m[|m| - 1]
    ensures j + 1 < |m| && m[j] <= v < m[j + 1]
  {
    j := 0;
    while !(v < m[j + 1])
      invariant j + 1 < |m| && m[j] <= v
      decreases |m| - j
    {
      j := j + 1;
    }
  }

  /** `closestMark(to:)`: the nearest track mark. */
  function ClosestMark(h: Helper, v: real): (r: real)
    requires Valid(h) && Terminates(h, TrackMarks, 0.0)
    ensures r == v || r in TrackValues(h, TrackMarks, 0.0)
  {
    ClosestIn(TrackValues(h, TrackMarks, 0.0), v)
  }

  /** Result of `setSlider`: the updated helper, the value written to the
      binding, and whether the requested value was within the range. */
  datatype Commit = Commit(helper: Helper, value: real, inRange: bool)

  /** What `setSlider` needs: a helper, and a mark list it can compute when
      snapping is on. */
  predicate CanCommit(h: Helper)
  {
    Valid(h) && (h.style.trackMarkSnapping ==> Terminates(h, TrackMarks, 0.0))
  }

  /** `setSlider(value:to:)`: clamps the request into the range, reporting
      whether it was already inside; remembers the previous value as the last
      resting value unless a drag is in progress; snaps to the nearest mark
      when snapping is on. */
  function SetSlider(h: Helper, value: real, newValue: real): (c: Commit)
    requires CanCommit(h)
    ensures c.inRange <==> h.range.Contains(newValue)
    ensures h.range.Contains(c.value)
    ensures c.helper == h.(lastSliderValue := if h.isDragging then h.lastSliderValue else value)
    ensures !h.style.trackMarkSnapping ==> c.value == Max(h.range.lower, Min(h.range.upper, newValue))
    ensures h.style.trackMarkSnapping ==>
      c.value == ClosestMark(h, Max(h.range.lower, Min(h.range.upper, newValue)))
  {
    var returnValue := !(newValue > h.range.upper) && !(newValue < h.range.lower);
    var clamped :=
      if newValue > h.range.upper then h.range.upper
      else if newValue < h.range.lower then h.range.lower
      else newValue;
    var h' := if !h.isDragging then h.(lastSliderValue := value) else h;
    var stored := if h.style.trackMarkSnapping then ClosestMark(h, clamped) else clamped;
    Commit(h', stored, returnValue)
  }

  /** Committing the value a commit just stored stores it again and reports it
      in range, whatever value is passed as the one being replaced (it only
      feeds the remembered last value). */
  lemma CommitIdempotent(h: Helper, value: real, newValue: real, other: real)
    requires CanCommit(h)
    ensures var c1 := SetSlider(h, value, newValue);
      var c2 := SetSlider(c1.helper, other, c1.value);
      c2.value == c1.value && c2.inRange
  {
    var c1 := SetSlider(h, value, newValue);
    if h.style.trackMarkSnapping {
      var m := TrackValues(h, TrackMarks, 0.0);
      assert TrackValues(c1.helper, TrackMarks, 0.0) == m;
      ClosestStable(m, Max(h.range.lower, Min(h.range.upper, newValue)));
    }
  }

  /** Without snapping a value inside the range is stored exactly. */
  lemma CommitInRangeExact(h: Helper, value: real, newValue: real)
    requires CanCommit(h) && !h.style.trackMarkSnapping && h.range.Contains(newValue)
    ensures SetSlider(h, value, newValue).value == newValue
  {
  }

  /** `trackMarkStep(of:)`. */
  function TrackMarkStep(h: Helper, interval: MarkInterval): (r: real)
    requires Valid(h)
    ensures r > 0.0
    ensures h.isInt ==> r >= 1.0 && IsIntegral(r)
    ensures !h.isInt ==> r == RawStep(h.range, interval)
    ensures h.isInt && RawStep(h.range, interval) >= 0.5 ==> Abs(r - RawStep(h.range, interval)) <= 0.5
    ensures h.isInt && RawStep(h.range, interval) < 0.5 ==> r == 1.0
  {
    StepSize(h.range, interval, h.isInt)
  }

  /** `moveSlider`: one step left or right, committed through `setSlider`;
      handled exactly when the stepped value was in range. */
  function MoveSlider(h: Helper, value: real, direction: Movement, interval: MarkInterval): (c: Commit)
    requires CanCommit(h)
    ensures var candidate := value + TrackMarkStep(h, interval) * direction.Sign();
      && (c.inRange <==> h.range.Contains(candidate))
      && h.range.Contains(c.value)
      && (c.inRange && !h.style.trackMarkSnapping ==> c.value == candidate)
    ensures c.inRange && !h.style.trackMarkSnapping ==>
      (direction == Right ==> c.value > value) && (direction == Left ==> c.value < value)
    ensures var candidate := value + TrackMarkStep(h, interval) * direction.Sign();
      !h.style.trackMarkSnapping ==> c.value == Max(h.range.lower, Min(h.range.upper, candidate))
    ensures var candidate := value + TrackMarkStep(h, interval) * direction.Sign();
      h.style.trackMarkSnapping ==> c.value == ClosestMark(h, Max(h.range.lower, Min(h.range.upper, candidate)))
    ensures c.helper == h.(lastSliderValue := if h.isDragging then h.lastSliderValue else value)
  {
    var step := TrackMarkStep(h, interval);
    SetSlider(h, value, value + step * direction.Sign())
  }
}

=== FILE: slider_style.dfy ===
/** The style record of the `2.Styling` revision and the values it derives
    from its optional fields: the effective mark size, the linear track
    buffer, and the track shadow. Colours, fonts and animations are left out;
    only whether the shadow colour is clear matters here. */
module SliderStyle {
  import opened Common
  import opened Indicators

  /** `TrackShadow`: a blur radius; `.none` is a radius of 0. */
  datatype Shadow = Radius(r: real)
  const NoShadow: Shadow := Radius(0.0)

  datatype ShadowColour = Clear | Gray

  datatype Style = Style(
    indicators: seq<Indicator>,
    trackHeight: real,
    trackMarks: MarkInterval,
    trackMarkSnapping: bool,
    trackMarkWidth: Option<real>,
    trackMarkHeight: Option<real>,
    labelMarks: MarkInterval,
    tintCentredOn: CentredOn,
    trackShadow: Shadow,
    thumbWidth: real,
    thumbHeight: real)

  /** `i_trackMarkWidth` and `i_trackMarkHeight`. */
  function MarkWidth(s: Style): real
  {
    DefaultedMarkWidth(s.trackMarkWidth, s.trackHeight)
  }

  function MarkHeight(s: Style): real
  {
    DefaultedMarkHeight(s.trackMarkHeight, s.trackHeight, s.thumbHeight)
  }

  /** `trackBuffer`: room for the wider of the thumb and a mark, i.e. the
      least value covering both. */
  function TrackBuffer(s: Style): (b: real)
    ensures b >= s.thumbWidth && b >= MarkWidth(s)
    ensures b == s.thumbWidth || b == MarkWidth(s)
  {
    Max(s.thumbWidth, MarkWidth(s))
  }

  /** `trackShadowRadius`: the payload of the shadow. */
  function ShadowRadius(s: Style): real
  {
    match s.trackShadow
    case Radius(r) => r
  }

  /** `trackShadowColor`: gray exactly when the shadow has a positive radius. */
  function ShadowColourOf(s: Style): (c: ShadowColour)
    ensures c == Gray <==> s.trackShadow.r > 0.0
  {
    if ShadowRadius(s) > 0.0 then Gray else Clear
  }

  /** `dynamicTrackMarks`: the scan of `Indicators.DynamicTrackMarks`. */
  function Dynamic(s: Style): Option<(real, real)>
  {
    DynamicTrackMarks(s.indicators)
  }
}

=== FILE: slider_view.dfy ===
/** The slider views' gesture handling: how a drag or a tap turns into a new
    bound value and how the helper's drag state and last resting value
    follow. The pointer's angle around the centre of a radial slider comes
    from trigonometry that is not modelled; it is part of the input. */
module SliderView {
  import opened Common
  import SliderHelper

  /** The helper and the bound value. */
  datatype View = View(helper: SliderHelper.Helper, value: real)

  /** A pointer location: its x on a linear track and its clockwise angle
      from the top around a radial track's centre. */
  datatype Pointer = Pointer(x: real, angle: real)

  /** `NewSlider.init`: the helper is always built for real values. */
  function Build(range: Range, step: Option<real>, initial: SliderHelper.HelperStyle)
    : (c: Construction<SliderHelper.Helper>)
    ensures c.Built? <==> range.Valid()
    ensures c.Built? ==> !c.helper.isInt && c.helper.step == step
  {
    SliderHelper.Init(range, false, step, initial)
  }

  /** The two appear handlers: the style is adopted, and the current value
      becomes the last resting value. */
  function AdoptStyle(v: View, style: SliderHelper.HelperStyle, onMacOS: bool): (r: View)
    ensures r.value == v.value && r.helper.lastSliderValue == v.helper.lastSliderValue
    ensures r.helper.range == v.helper.range && r.helper.step == v.helper.step
  {
    v.(helper := SliderHelper.UpdateStyle(v.helper, style, onMacOS))
  }

  function RememberValue(v: View): (r: View)
    ensures r.value == v.value && r.helper.lastSliderValue == v.value
    ensures r.helper.style == v.helper.style && r.helper.isDragging == v.helper.isDragging
  {
    v.(helper := v.helper.(lastSliderValue := v.value))
  }

  /** The appear handlers touch different parts of the helper, so the order
      in which they run does not matter. */
  lemma AppearOrderIrrelevant(v: View, style: SliderHelper.HelperStyle, onMacOS: bool)
    ensures AdoptStyle(RememberValue(v), style, onMacOS) == RememberValue(AdoptStyle(v, style, onMacOS))
    ensures RememberValue(AdoptStyle(v, style, onMacOS)).helper.lastSliderValue == v.value
  {
  }

  /** What the drag handler needs: a helper that can commit and a pointer
      that maps to a value (a linear track with a length, or a radial angle
      on the arc of a track with a length, or in the gap). */
  predicate CanDrag(h: SliderHelper.Helper, p: Pointer)
  {
    && SliderHelper.CanCommit(h)
    && (h.style.orientation == SliderHelper.Linear ==> h.scaling != 0.0)
    && (h.style.orientation == SliderHelper.Radial ==>
          (p.angle <= SliderHelper.FullTurn - h.style.offsetAngle ==> h.scaling != 0.0))
  }

  /** The value a pointer asks for: `getSliderValue` of its x on a linear
      track, `getAngleValue` of its angle on a radial one. The radial formula
      is the one the program calls, which leaves out the lower bound
      (`SliderHelper.AngleValueAsWritten`). */
  function RequestedValue(h: SliderHelper.Helper, p: Pointer): (r: real)
    requires CanDrag(h, p)
    ensures h.style.orientation == SliderHelper.Linear ==> SliderHelper.SliderPosition(h, r) == p.x
    ensures h.style.orientation == SliderHelper.Radial ==> h.range.Contains(r)
  {
    if h.style.orientation == SliderHelper.Radial then SliderHelper.AngleValueAsWritten(h, p.angle)
    else
      SliderHelper.ValueRoundTrip(h, p.x);
      SliderHelper.GetSliderValue(h, p.x)
  }

  /** The value a pointer evidently should ask for: the same, with the
      corrected radial formula that restores the lower bound. */
  function IntendedRequestedValue(h: SliderHelper.Helper, p: Pointer): (r: real)
    requires CanDrag(h, p)
    ensures h.style.orientation == SliderHelper.Linear ==> r == RequestedValue(h, p)
    ensures h.style.orientation == SliderHelper.Radial ==> h.range.Contains(r)
    ensures h.range.lower == 0.0 ==> r == RequestedValue(h, p)
  {
    if h.style.orientation == SliderHelper.Radial then
      SliderHelper.AngleValueFromZero(h, p.angle);
      SliderHelper.AngleValue(h, p.angle)
    else SliderHelper.GetSliderValue(h, p.x)
  }

  /** The drag `onChanged` handler: the first change of a drag toggles
      `dragStarted`; the helper is marked as dragging before the requested
      value is committed, so a drag never updates the last resting value. */
  function DragChanged(v: View, p: Pointer): (r: View)
    requires CanDrag(v.helper, p)
    ensures r.helper == v.helper.(isDragging := true,
                                  dragStarted := if v.helper.isDragging then v.helper.dragStarted
                                                 else !v.helper.dragStarted)
    ensures v.helper.range.Contains(r.value)
    ensures !v.helper.style.trackMarkSnapping && v.helper.range.Contains(RequestedValue(v.helper, p)) ==>
      r.value == RequestedValue(v.helper, p)
    ensures !v.helper.style.trackMarkSnapping ==>
      r.value == Max(v.helper.range.lower, Min(v.helper.range.upper, RequestedValue(v.helper, p)))
  {
    var h1 := if !v.helper.isDragging then v.helper.(dragStarted := !v.helper.dragStarted) else v.helper;
    var h2 := h1.(isDragging := true);
    var c := SliderHelper.SetSlider(h2, v.value, RequestedValue(h2, p));
    View(c.helper, c.value)
  }

  /** The drag `onEnded` handler. */
  function DragEnded(v: View): (r: View)
    ensures !r.helper.isDragging && r.helper.lastSliderValue == r.value == v.value
    ensures r.helper == v.helper.(isDragging := false, lastSliderValue := v.value)
  {
    View(v.helper.(isDragging := false, lastSliderValue := v.value), v.value)
  }

  /** A run of drag changes. */
  function Drag(v: View, ps: seq<Pointer>): (r: View)
    requires forall i :: 0 <= i < |ps| ==> CanDrag(v.helper, ps[i])
    ensures r.helper == v.helper.(isDragging := r.helper.isDragging, dragStarted := r.helper.dragStarted)
    ensures r.helper.isDragging == (v.helper.isDragging || |ps| > 0)
    ensures r.helper.dragStarted ==
      (if |ps| > 0 && !v.helper.isDragging then !v.helper.dragStarted else v.helper.dragStarted)
    ensures |ps| > 0 ==> v.helper.range.Contains(r.value)
    ensures |ps| == 0 ==> r == v
    decreases |ps|
  {
    if |ps| == 0 then v
    else
      var v1 := DragChanged(v, ps[0]);
      assert forall i :: 0 <= i < |ps[1..]| ==> CanDrag(v1.helper, ps[1..][i]) by {
        forall i | 0 <= i < |ps[1..]|
          ensures CanDrag(v1.helper, ps[1..][i])
        {
          assert ps[1..][i] == ps[i + 1];
          assert CanDrag(v.helper, ps[i + 1]);
        }
      }
      Drag(v1, ps[1..])
  }

  /** A whole drag from rest: `dragStarted` flips exactly once, nothing else
      in the helper changes except the last resting value, which ends equal
      to the value the drag left behind, inside the range. */
  lemma WholeDrag(v: View, ps: seq<Pointer>)
    requires !v.helper.isDragging && |ps| > 0
    requires forall i :: 0 <= i < |ps| ==> CanDrag(v.helper, ps[i])
    ensures var r := DragEnded(Drag(v, ps));
      && r.helper.dragStarted == !v.helper.dragStarted
      && !r.helper.isDragging
      && r.helper.lastSliderValue == r.value
      && v.helper.range.Contains(r.value)
      && r.helper == v.helper.(dragStarted := r.helper.dragStarted, lastSliderValue := r.value)
  {
  }

  /** Within a drag the last resting value stays what it was before the
      drag, which is what a tint anchored on the last value needs. */
  lemma DragKeepsLastValue(v: View, ps: seq<Pointer>)
    requires forall i :: 0 <= i < |ps| ==> CanDrag(v.helper, ps[i])
    ensures Drag(v, ps).helper.lastSliderValue == v.helper.lastSliderValue
  {
  }

  /** A linear drag to the track position of a value in range sets exactly
      that value when snapping is off. */
  lemma DragToPosition(v: View, target: real)
    requires SliderHelper.CanCommit(v.helper) && !v.helper.style.trackMarkSnapping
    requires v.helper.style.orientation == SliderHelper.Linear && v.helper.scaling != 0.0
    requires v.helper.range.Contains(target)
    ensures var p := Pointer(SliderHelper.SliderPosition(v.helper, target), 0.0);
      DragChanged(v, p).value == target
  {
    SliderHelper.PositionRoundTrip(v.helper, target);
  }

  /** A radial drag to the angle of a value in range sets exactly that value
      when snapping is off, the track has been laid out and the range starts
      at 0, the one case in which the program's angle formula is right. */
  lemma DragToAngle(v: View, target: real)
    requires SliderHelper.CanCommit(v.helper) && !v.helper.style.trackMarkSnapping
    requires v.helper.style.orientation == SliderHelper.Radial
    requires v.helper.scaling > 0.0 && v.helper.range.lower == 0.0
    requires v.helper.scaling * v.helper.range.Span() == SliderHelper.FullTurn - v.helper.style.offsetAngle
    requires v.helper.range.Contains(target)
    ensures var p := Pointer(0.0, SliderHelper.Angle(v.helper, target));
      CanDrag(v.helper, p) && DragChanged(v, p).value == target
  {
    var p := Pointer(0.0, SliderHelper.Angle(v.helper, target));
    SliderHelper.AngleRoundTrip(v.helper, target);
    SliderHelper.AngleValueFromZero(v.helper, p.angle);
  }

  /** On any range the corrected formula reads the angle of a value in range
      back as that value, so a drag to it would set it. */
  lemma IntendedDragToAngle(h: SliderHelper.Helper, target: real)
    requires SliderHelper.CanCommit(h) && h.style.orientation == SliderHelper.Radial
    requires h.scaling > 0.0
    requires h.scaling * h.range.Span() == SliderHelper.FullTurn - h.style.offsetAngle
    requires h.range.Contains(target)
    ensures var p := Pointer(0.0, SliderHelper.Angle(h, target));
      CanDrag(h, p) && IntendedRequestedValue(h, p) == target
  {
    SliderHelper.AngleRoundTrip(h, target);
  }

  /** As the program stands, dragging a radial slider on 10...20 to the angle
      of 15 (half way round) stores the lower bound 10. */
  lemma DragToAngleIgnoresLowerBound(v: View)
    requires SliderHelper.CanCommit(v.helper) && !v.helper.style.trackMarkSnapping
    requires v.helper.style.orientation == SliderHelper.Radial
    requires v.helper.range == Range(10.0, 20.0) && v.helper.style.offsetAngle == 0.0
    requires v.helper.scaling == 36.0
    ensures var p := Pointer(0.0, SliderHelper.Angle(v.helper, 15.0));
      CanDrag(v.helper, p) && DragChanged(v, p).value == 10.0
  {
    SliderHelper.AngleValueIgnoresLowerBound(v.helper);
  }
}

/** The slider view of the earliest revision (`NewSlider.swift` at the
    package root, on the root helper): taps set the value without a check,
    drags only accept valid values, and an integer binding rounds what it is
    given. */
module EarliestSliderView {
  import opened Common
  import LegacySliderHelper

  datatype View = View(helper: LegacySliderHelper.Helper, value: real)

  /** The integer initialiser converts `Int` bounds, so an integer slider's
      range has integral ends. */
  predicate IntBounds(h: LegacySliderHelper.Helper)
  {
    h.isInt ==> IsIntegral(h.range.lower) && IsIntegral(h.range.upper)
  }

  /** The integer binding's setter: `Int(x.rounded())`. Integers are
      unbounded here, so the conversion cannot overflow. */
  function IntWrite(x: real): (n: int)
    ensures Abs(n as real - x) <= 0.5
  {
    RoundHalfAway(x)
  }

  /** Reading an integer back and writing it gives the same integer, and a
      value written from inside an integer range stays inside it. */
  lemma IntBindingRoundTrip(n: int, lower: int, upper: int, x: real)
    ensures IntWrite(n as real) == n
    ensures lower as real <= x <= upper as real ==> lower <= IntWrite(x) <= upper
  {
    RoundHalfAwayOfInteger(n);
    if lower as real <= x <= upper as real {
      var r := IntWrite(x);
      assert r as real - x <= 0.5 && x - r as real <= 0.5;
      assert r > lower - 1 && r < upper + 1;
    }
  }

  /** What the binding holds after `x` is written to it: the value itself for
      a `Double` binding, the nearest integer (halves away from zero) for an
      `Int` binding. */
  function Write(h: LegacySliderHelper.Helper, x: real): (y: real)
    ensures !h.isInt ==> y == x
    ensures h.isInt ==> IsIntegral(y) && Abs(y - x) <= 0.5
  {
    if h.isInt then IntWrite(x) as real else x
  }

  /** A value written from inside the range stays inside it. */
  lemma WriteKeepsValid(h: LegacySliderHelper.Helper, x: real)
    requires IntBounds(h) && h.range.Contains(x)
    ensures h.range.Contains(Write(h, x))
  {
    if h.isInt {
      IntBindingRoundTrip(0, h.range.lower.Floor, h.range.upper.Floor, x);
    }
  }

  /** The tap handler: the value at the tapped x is written unchecked. */
  function Tap(v: View, x: real): (r: View)
    requires v.helper.scaling != 0.0
    ensures r.helper == v.helper
    ensures !v.helper.isInt ==> LegacySliderHelper.SliderLocation(v.helper, r.value) == x
    ensures v.helper.isInt ==>
      IsIntegral(r.value) && Abs(r.value - LegacySliderHelper.GetSliderValue(v.helper, x)) <= 0.5
  {
    LegacySliderHelper.LocationRoundTrip(v.helper, x);
    View(v.helper, Write(v.helper, LegacySliderHelper.GetSliderValue(v.helper, x)))
  }

  /** Tapping in the padding left of the track asks for a value below the
      range; a `Double` binding stores it, an `Int` binding at most rounds it
      up to the lower bound. */
  lemma TapCanLeaveRange(v: View)
    requires LegacySliderHelper.Valid(v.helper) && IntBounds(v.helper)
    requires v.helper.scaling > 0.0 && v.helper.buffer > 0.0
    ensures LegacySliderHelper.GetSliderValue(v.helper, 0.0) < v.helper.range.lower
    ensures Tap(v, 0.0).value <= v.helper.range.lower
    ensures !v.helper.isInt ==> Tap(v, 0.0).value < v.helper.range.lower
  {
    assert (0.0 - v.helper.buffer * 0.5) / v.helper.scaling < 0.0;
    if v.helper.isInt {
      var asked := LegacySliderHelper.GetSliderValue(v.helper, 0.0);
      var n := IntWrite(asked);
      var lo := v.helper.range.lower.Floor;
      assert n as real <= asked + 0.5;
      assert n < lo + 1;
    }
  }

  /** Such a tap leaves a value for which the `lowest` highlight range
      `lowerBound...value` of the earliest track marks cannot be formed: the
      closed range traps. */
  lemma TapBreaksLowestHighlight(v: View)
    requires LegacySliderHelper.Valid(v.helper) && !v.helper.isInt
    requires v.helper.scaling > 0.0 && v.helper.buffer > 0.0
    ensures !HighlightDefined(Lowest, v.helper.range, Tap(v, 0.0).value)
  {
    TapCanLeaveRange(v);
  }

  /** The guarded write the drag performs: the asked value is written only
      when it is valid, otherwise the value stays. */
  function GuardedWrite(h: LegacySliderHelper.Helper, current: real, asked: real): (y: real)
    requires IntBounds(h)
    ensures h.range.Contains(asked) ==> y == Write(h, asked) && h.range.Contains(y)
    ensures !h.range.Contains(asked) ==> y == current
  {
    if LegacySliderHelper.IsValidSliderValue(h, asked) then
      WriteKeepsValid(h, asked);
      Write(h, asked)
    else current
  }

  /** The tap as evidently intended: checked like a drag, so it never takes
      a valid value out of the range. */
  function CheckedTap(v: View, x: real): (r: View)
    requires v.helper.scaling != 0.0 && IntBounds(v.helper)
    ensures r.helper == v.helper
    ensures v.helper.range.Contains(v.value) ==> v.helper.range.Contains(r.value)
    ensures var asked := LegacySliderHelper.GetSliderValue(v.helper, x);
      v.helper.range.Contains(asked) ==> r == Tap(v, x)
  {
    View(v.helper, GuardedWrite(v.helper, v.value, LegacySliderHelper.GetSliderValue(v.helper, x)))
  }

  /** After a checked tap from a valid value the `lowest` highlight range can
      always be formed. */
  lemma CheckedTapKeepsHighlight(v: View, x: real)
    requires v.helper.scaling != 0.0 && IntBounds(v.helper)
    requires v.helper.range.Contains(v.value)
    ensures HighlightDefined(Lowest, v.helper.range, CheckedTap(v, x).value)
  {
  }

  /** The drag `onChanged` handler: the first change toggles `dragStarted`,
      and the value at the pointer is written only if it is in range. */
  function DragChanged(v: View, x: real): (r: View)
    requires v.helper.scaling != 0.0 && IntBounds(v.helper)
    ensures r.helper == v.helper.(isDragging := true,
                                  dragStarted := if v.helper.isDragging then v.helper.dragStarted
                                                 else !v.helper.dragStarted)
    ensures var asked := LegacySliderHelper.GetSliderValue(v.helper, x);
      r.value == (if v.helper.range.Contains(asked) then Write(v.helper, asked) else v.value)
  {
    var h1 := if !v.helper.isDragging then v.helper.(dragStarted := !v.helper.dragStarted) else v.helper;
    var h2 := h1.(isDragging := true);
    View(h2, GuardedWrite(h2, v.value, LegacySliderHelper.GetSliderValue(h2, x)))
  }

  /** The drag `onEnded` handler only clears the drag flag. */
  function DragEnded(v: View): (r: View)
    ensures r.value == v.value && !r.helper.isDragging
    ensures r.helper.(isDragging := v.helper.isDragging) == v.helper
  {
    v.(helper := v.helper.(isDragging := false))
  }

  /** Unlike a tap, a drag never takes a valid value out of the range. */
  lemma DragKeepsValid(v: View, x: real)
    requires v.helper.scaling != 0.0 && IntBounds(v.helper) && v.helper.range.Contains(v.value)
    ensures v.helper.range.Contains(DragChanged(v, x).value)
    ensures v.helper.range.Contains(DragEnded(DragChanged(v, x)).value)
  {
  }
}

=== FILE: thumb.dfy ===
/** The thumb views: where the thumb is drawn and how the arrow keys move it.
    Both revisions keep a proxy copy of the bound value (to work around key
    repeats being cancelled) and keep the two in step through change
    handlers; a key press is modelled together with the handlers it sets
    off. */
module Thumb {
  import opened Common
  import SliderHelper

  /** The bound slider value and its proxy. */
  datatype ThumbState = ThumbState(value: real, proxy: real)

  /** Result of a key press: the helper, both copies of the value, and
      whether the press was handled. */
  datatype KeyOutcome = KeyOutcome(helper: SliderHelper.Helper, state: ThumbState, handled: bool)

  /** `arrowKeyPress`: a step in the key's direction committed to the proxy
      through `setSlider`. */
  function ArrowKeyPress(h: SliderHelper.Helper, proxy: real, direction: Movement): (c: SliderHelper.Commit)
    requires SliderHelper.CanCommit(h)
  {
    var trackMarkStep := SliderHelper.TrackMarkStep(h, h.style.trackMarkInterval);
    SliderHelper.SetSlider(h, proxy, proxy + trackMarkStep * direction.Sign())
  }

  /** The change handlers a press sets off, given the arrow key's commit `c`
      to the proxy: a changed proxy is committed to the bound value, and a
      changed bound value is copied back to the proxy. */
  function KeyHandlers(st: ThumbState, c: SliderHelper.Commit): (o: KeyOutcome)
    requires SliderHelper.CanCommit(c.helper)
  {
    var proxy1 := c.value;
    var (h2, value2) :=
      if proxy1 != st.proxy then
        var c2 := SliderHelper.SetSlider(c.helper, st.value, proxy1);
        (c2.helper, c2.value)
      else (c.helper, st.value);
    var proxy2 := if value2 != st.value then value2 else proxy1;
    KeyOutcome(h2, ThumbState(value2, proxy2), c.inRange)
  }

  /** A key press and its handlers. A press that oversteps the range is
      reported as ignored, yet the value still moves to the bound. */
  function KeyPress(h: SliderHelper.Helper, st: ThumbState, direction: Movement): (o: KeyOutcome)
    requires SliderHelper.CanCommit(h)
  {
    KeyHandlers(st, ArrowKeyPress(h, st.proxy, direction))
  }

  /** From a synchronised state the press behaves exactly like `moveSlider`
      on the bound value: both copies end on its result, it is handled
      exactly when the step stayed in range, and at rest the previous value
      becomes the last resting value. */
  lemma KeyPressIsMove(h: SliderHelper.Helper, v: real, direction: Movement)
    requires SliderHelper.CanCommit(h)
    ensures var o := KeyPress(h, ThumbState(v, v), direction);
      var m := SliderHelper.MoveSlider(h, v, direction, h.style.trackMarkInterval);
      && o.state == ThumbState(m.value, m.value)
      && o.handled == m.inRange
      && h.range.Contains(o.state.value)
      && (!h.isDragging ==> o.helper.lastSliderValue == v)
      && o.helper == h.(lastSliderValue := o.helper.lastSliderValue)
      && o.helper == m.helper
  {
    var c1 := ArrowKeyPress(h, v, direction);
    SyncedKeyPress(h, v, direction);
    assert KeyPress(h, ThumbState(v, v), direction) == KeyHandlers(ThumbState(v, v), c1);
    assert KeyPress(h, ThumbState(v, v), direction).helper == c1.helper;
    assert c1 == SliderHelper.MoveSlider(h, v, direction, h.style.trackMarkInterval);
  }

  /** From a synchronised state the handlers' second commit repeats the
      first, whatever was requested, so both copies end on the value first
      committed. */
  lemma SyncedHandlers(h: SliderHelper.Helper, v: real, newValue: real)
    requires SliderHelper.CanCommit(h)
    ensures var c1 := SliderHelper.SetSlider(h, v, newValue);
      KeyHandlers(ThumbState(v, v), c1).state == ThumbState(c1.value, c1.value)
  {
    SliderHelper.CommitIdempotent(h, v, newValue, v);
  }

  /** From a synchronised state both copies end on the value the arrow key
      committed. */
  lemma SyncedKeyPress(h: SliderHelper.Helper, v: real, direction: Movement)
    requires SliderHelper.CanCommit(h)
    ensures var c1 := ArrowKeyPress(h, v, direction);
      KeyPress(h, ThumbState(v, v), direction).state == ThumbState(c1.value, c1.value)
  {
    var newValue := v + SliderHelper.TrackMarkStep(h, h.style.trackMarkInterval) * direction.Sign();
    var c1 := ArrowKeyPress(h, v, direction);
    assert c1 == SliderHelper.SetSlider(h, v, newValue);
    assert KeyPress(h, ThumbState(v, v), direction) == KeyHandlers(ThumbState(v, v), c1);
    SyncedHandlers(h, v, newValue);
  }


  /** A press at the upper bound towards the right is ignored and leaves the
      value where it is. */
  lemma RightAtUpperIgnored(h: SliderHelper.Helper)
    requires SliderHelper.CanCommit(h) && !h.style.trackMarkSnapping
    ensures var o := KeyPress(h, ThumbState(h.range.upper, h.range.upper), Right);
      !o.handled && o.state.value == h.range.upper
  {
    KeyPressIsMove(h, h.range.upper, Right);
  }

  /** The leading x offset of the thumb on a linear track. */
  function LinearOffset(h: SliderHelper.Helper, v: real): (o: real)
    ensures o + h.style.thumbWidth / 2.0 == SliderHelper.SliderPosition(h, v)
  {
    SliderHelper.SliderPosition(h, v) - h.style.thumbWidth * 0.5
  }

  /** On a laid-out linear track the thumb of any value in range lies wholly
      inside the frame, centred on the value's track position. */
  lemma ThumbInsideFrame(h: SliderHelper.Helper, rect: Rect, v: real)
    requires SliderHelper.Valid(h) && h.style.orientation == SliderHelper.Linear
    requires h.style.thumbWidth >= 0.0 && h.range.Contains(v)
    requires rect.width >= Max(h.style.thumbWidth, h.style.trackMarkWidth)
    ensures var g := SliderHelper.SetTrackSize(h, rect);
      && 0.0 <= LinearOffset(g, v)
      && LinearOffset(g, v) + g.style.thumbWidth <= rect.width
      && LinearOffset(g, v) + g.style.thumbWidth / 2.0 == SliderHelper.SliderPosition(g, v)
  {
    var g := SliderHelper.SetTrackSize(h, rect);
    assert 0.0 <= (v - h.range.lower) * g.scaling <= h.range.Span() * g.scaling by {
      assert g.scaling == g.trackLength / h.range.Span();
      assert (v - h.range.lower) * g.scaling >= 0.0;
      assert (h.range.upper - v) * g.scaling >= 0.0;
    }
  }

  /** Where the radial thumb is drawn: above the centre at the middle of the
      track's thickness, rotated by the value's angle. */
  datatype RadialPlacement = RadialPlacement(position: Point, rotation: real)

  function RadialThumb(h: SliderHelper.Helper, v: real): (r: RadialPlacement)
    ensures r.position.x == h.centre.x
    ensures h.centre.y - r.position.y == h.innerRadius + h.style.trackHeight / 2.0
    ensures r.rotation == SliderHelper.Angle(h, v)
  {
    var r := h.innerRadius + 0.5 * h.style.trackHeight;
    RadialPlacement(Point(h.centre.x, h.centre.y - r), SliderHelper.Angle(h, v))
  }

  /** After a radial layout the thumb sits at the top for the lower bound and
      at the start of the gap for the upper bound, always on the vertical
      through the centre before rotation. */
  lemma RadialThumbEnds(h: SliderHelper.Helper, rect: Rect)
    requires SliderHelper.Valid(h) && h.style.orientation == SliderHelper.Radial
    ensures var g := SliderHelper.SetTrackSize(h, rect);
      && RadialThumb(g, h.range.lower).rotation == 0.0
      && RadialThumb(g, h.range.upper).rotation == SliderHelper.FullTurn - h.style.offsetAngle
      && RadialThumb(g, h.range.lower).position.x == rect.MidX()
  {
    SliderHelper.RadialArcEndsAtGap(h, rect);
  }
}

/** The thumb of the earliest revision: it checks validity itself instead of
    going through `setSlider`, and is hidden when marks are dynamic. */
module EarliestThumb {
  import opened Common
  import LegacySliderHelper

  datatype ThumbState = ThumbState(value: real, proxy: real)

  datatype KeyOutcome = KeyOutcome(state: ThumbState, handled: bool)

  /** The thumb is drawn with the thumb indicator and regular marks only. */
  function Visible(hasThumbIndicator: bool, dynamicMarks: bool): bool
  {
    hasThumbIndicator && !dynamicMarks
  }

  /** `arrowKeyPress`: an out-of-range step is ignored and the proxy kept;
      otherwise the proxy takes the stepped value. */
  function ArrowKeyPress(h: LegacySliderHelper.Helper, proxy: real, direction: Movement, marks: MarkInterval)
    : (o: (real, bool))
    requires LegacySliderHelper.Valid(h)
    ensures var m := LegacySliderHelper.MoveSlider(h, proxy, direction, marks);
      o == (m.value, m.handled)
  {
    var trackMarkStep := LegacySliderHelper.TrackMarkStep(h, marks);
    var newValue := proxy + trackMarkStep * direction.Sign();
    if !LegacySliderHelper.IsValidSliderValue(h, newValue) then (proxy, false)
    else (newValue, true)
  }

  /** A key press and its handlers: a changed proxy is copied to the value,
      and a changed value back to the proxy. */
  function KeyPress(h: LegacySliderHelper.Helper, st: ThumbState, direction: Movement, marks: MarkInterval)
    : (o: KeyOutcome)
    requires LegacySliderHelper.Valid(h)
    ensures var m := LegacySliderHelper.MoveSlider(h, st.proxy, direction, marks);
      st.value == st.proxy ==> o == KeyOutcome(ThumbState(m.value, m.value), m.handled)
  {
    var (proxy1, handled) := ArrowKeyPress(h, st.proxy, direction, marks);
    var value1 := if proxy1 != st.proxy then proxy1 else st.value;
    var proxy2 := if value1 != st.value then value1 else proxy1;
    KeyOutcome(ThumbState(value1, proxy2), handled)
  }

  /** Key presses never take a valid value out of the range. */
  lemma KeyPressKeepsValid(h: LegacySliderHelper.Helper, v: real, direction: Movement, marks: MarkInterval)
    requires LegacySliderHelper.Valid(h) && h.range.Contains(v)
    ensures h.range.Contains(KeyPress(h, ThumbState(v, v), direction, marks).state.value)
  {
    LegacySliderHelper.MovePreservesValidity(h, v, direction, marks);
  }

  /** The leading x offset of the thumb. */
  function Offset(h: LegacySliderHelper.Helper, v: real, thumbWidth: real): (o: real)
    ensures o + thumbWidth / 2.0 == LegacySliderHelper.SliderLocation(h, v)
  {
    LegacySliderHelper.SliderLocation(h, v) - thumbWidth * 0.5
  }

  /** After a layout the thumb of the lower bound starts at the frame's
      leading edge when the thumb is at least as wide as a mark. */
  lemma ThumbAtLowerBound(h: LegacySliderHelper.Helper, width: real, thumbWidth: real, markWidth: real)
    requires LegacySliderHelper.Valid(h) && thumbWidth >= markWidth
    ensures var g := LegacySliderHelper.SetTrackLength(h, width, thumbWidth, markWidth);
      Offset(g, h.range.lower, thumbWidth) == 0.0
      && Offset(g, h.range.upper, thumbWidth) + thumbWidth == width
  {
    LegacySliderHelper.ThumbPositionsAfterLayout(h, width, thumbWidth, markWidth);
  }
}

=== FILE: tint.dfy ===
/** The linear tint views of all three revisions: where the tint is anchored,
    whether a start cap is drawn over the anchor, and the bar between the
    thumb and the anchor (`Common.TintBarLayout`). Colours, shadows, the
    radial tint and animation are not modelled. */
module Tint {
  import opened Common
  import MarkSequence
  import SliderHelper

  /** What a linear tint view draws: an optional start cap (its x offset) and
      the bar. */
  datatype Drawing = Drawing(startCap: Option<real>, bar: Bar)

  /** `anchor`: the leading edge of the frame for `lowest`, otherwise the
      position of the fixed value or of the last resting value. */
  function Anchor(h: SliderHelper.Helper): (a: real)
    ensures h.style.tintCentredOn.Lowest? ==> a == 0.0
    ensures h.style.tintCentredOn.Value? ==>
      a == SliderHelper.SliderPosition(h, h.style.tintCentredOn.fixed)
    ensures h.style.tintCentredOn.LastValue? ==>
      a == SliderHelper.SliderPosition(h, h.lastSliderValue)
  {
    match h.style.tintCentredOn
    case Lowest => 0.0
    case Value(f) => SliderHelper.SliderPosition(h, f)
    case LastValue => SliderHelper.SliderPosition(h, h.lastSliderValue)
  }

  /** `shouldShowTintBar`: a scan of the indicator set for `tintedTrack`. */
  function ShouldShowTintBar(h: SliderHelper.Helper): bool
  {
    SliderHelper.TintedTrack in h.style.indicators
  }

  /** `showTintBarStart`: every anchor except `lowest` gets a cap, which
      would otherwise cover the track's rounded end. */
  function ShowTintBarStart(h: SliderHelper.Helper): bool
  {
    !h.style.tintCentredOn.Lowest?
  }

  /** The linear tint of the current revision, or nothing when the tinted
      track indicator is absent. */
  function LinearTint(h: SliderHelper.Helper, value: real): (d: Option<Drawing>)
    ensures d.Some? <==> SliderHelper.TintedTrack in h.style.indicators
    ensures d.Some? ==>
      (d.value.startCap.Some? <==> !h.style.tintCentredOn.Lowest?)
      && (d.value.startCap.Some? ==> d.value.startCap.value + h.style.trackMarkWidth / 2.0 == Anchor(h))
      && d.value.bar == TintBarLayout(SliderHelper.SliderPosition(h, value), Anchor(h), h.style.thumbWidth)
  {
    if !ShouldShowTintBar(h) then None
    else
      var cap := if ShowTintBarStart(h) then Some(Anchor(h) - h.style.trackMarkWidth / 2.0) else None;
      Some(Drawing(cap, TintBarLayout(SliderHelper.SliderPosition(h, value), Anchor(h), h.style.thumbWidth)))
  }

  /** Anchored on a fixed value on a laid-out track, the bar always touches
      the anchor (starting there when the thumb is at or past the fixed value,
      ending there otherwise), stays between the thumb and the anchor, and
      vanishes when the thumb is within half a thumb of the anchor. */
  lemma FixedAnchorBar(h: SliderHelper.Helper, value: real)
    requires SliderHelper.TintedTrack in h.style.indicators && h.style.tintCentredOn.Value?
    requires h.scaling > 0.0 && h.style.thumbWidth >= 0.0
    ensures var f := h.style.tintCentredOn.fixed;
      var b := LinearTint(h, value).value.bar;
      var loc := SliderHelper.SliderPosition(h, value);
      var anchor := SliderHelper.SliderPosition(h, f);
      && (f <= value ==> b.start == anchor)
      && (value < f ==> b.start + b.width == anchor)
      && (b.width >= 0.0 ==> Min(loc, anchor) <= b.start && b.start + b.width <= Max(loc, anchor))
      && (Abs(loc - anchor) <= h.style.thumbWidth / 2.0 ==> b.RenderedWidth() == 0.0)
  {
    var f := h.style.tintCentredOn.fixed;
    var loc := SliderHelper.SliderPosition(h, value);
    var anchor := SliderHelper.SliderPosition(h, f);
    TintBarWithinSegment(loc, anchor, h.style.thumbWidth);
    if value < f {
      MarkSequence.MulStrict(value - h.range.lower, f - h.range.lower, h.scaling);
      assert loc < anchor;
    } else {
      MarkSequence.MulMonotone(f - h.range.lower, value - h.range.lower, h.scaling);
      assert anchor <= loc;
    }
  }
}

/** The tint view of the `1.SliderViews` revision: the last resting value is
    passed in by the slider, positions come from the earlier helper. */
module LegacyTint {
  import opened Common
  import Indicators
  import LegacySliderStyle
  import LegacySliderHelper
  import Tint

  function Anchor(s: LegacySliderStyle.Style, h: LegacySliderHelper.Helper, lastSliderValue: real): (a: real)
    ensures s.tintCentredOn.Lowest? ==> a == 0.0
    ensures s.tintCentredOn.Value? ==> a == LegacySliderHelper.SliderLocation(h, s.tintCentredOn.fixed)
    ensures s.tintCentredOn.LastValue? ==> a == LegacySliderHelper.SliderLocation(h, lastSliderValue)
  {
    match s.tintCentredOn
    case Lowest => 0.0
    case Value(f) => LegacySliderHelper.SliderLocation(h, f)
    case LastValue => LegacySliderHelper.SliderLocation(h, lastSliderValue)
  }

  /** Drawn only with the `tintBar` indicator; the cap is a mark wide and is
      omitted for `lowest`; the bar uses the style's thumb width. */
  function LinearTint(s: LegacySliderStyle.Style, h: LegacySliderHelper.Helper, value: real, lastSliderValue: real)
    : (d: Option<Tint.Drawing>)
    ensures d.Some? <==> Indicators.TintBar in s.indicators
    ensures d.Some? ==>
      (d.value.startCap.Some? <==> !s.tintCentredOn.Lowest?)
      && (d.value.startCap.Some? ==>
            d.value.startCap.value + LegacySliderStyle.MarkWidth(s) / 2.0 == Anchor(s, h, lastSliderValue))
      && d.value.bar == TintBarLayout(LegacySliderHelper.SliderLocation(h, value),
                                      Anchor(s, h, lastSliderValue), s.thumbWidth)
  {
    if !Indicators.ContainsTintBar(s.indicators) then None
    else
      var anchor := Anchor(s, h, lastSliderValue);
      var cap := if !s.tintCentredOn.Lowest? then Some(anchor - LegacySliderStyle.MarkWidth(s) / 2.0) else None;
      Some(Tint.Drawing(cap, TintBarLayout(LegacySliderHelper.SliderLocation(h, value), anchor, s.thumbWidth)))
  }

  /** Anchored on the last resting value, a thumb that has not moved since
      draws no bar. */
  lemma UnmovedThumbHasNoBar(s: LegacySliderStyle.Style, h: LegacySliderHelper.Helper, value: real)
    requires Indicators.TintBar in s.indicators && s.tintCentredOn.LastValue? && s.thumbWidth >= 0.0
    ensures LinearTint(s, h, value, value).value.bar.RenderedWidth() == 0.0
  {
  }
}

/** The tint view of the earliest revision. Its style record is not part of
    this model; the view reads the indicator test, the anchor rule and the
    thumb width. Its start capsule is always drawn in a clear colour, so it is
    left out. */
module EarliestTint {
  import opened Common
  import LegacySliderHelper

  /** `getAnchorCenter`: `lowest` is the position of the lower bound, a fixed
      value its position, and `lastValue` is not implemented and gives 0. */
  function AnchorCentre(c: CentredOn, h: LegacySliderHelper.Helper): (a: real)
    ensures c.Lowest? ==> a == LegacySliderHelper.MinThumbPos(h)
    ensures c.Value? ==> a == LegacySliderHelper.SliderLocation(h, c.fixed)
    ensures c.LastValue? ==> a == 0.0
  {
    match c
    case Lowest => LegacySliderHelper.SliderLocation(h, h.range.lower)
    case Value(f) => LegacySliderHelper.SliderLocation(h, f)
    case LastValue => 0.0
  }

  /** The bar, drawn only when the indicator set contains `tintBar`. */
  function LinearTint(hasTintBar: bool, c: CentredOn, thumbWidth: real, h: LegacySliderHelper.Helper, value: real)
    : (b: Option<Bar>)
    ensures b.Some? <==> hasTintBar
    ensures b.Some? ==> b.value == TintBarLayout(LegacySliderHelper.SliderLocation(h, value), AnchorCentre(c, h), thumbWidth)
  {
    if hasTintBar then Some(TintBarLayout(LegacySliderHelper.SliderLocation(h, value), AnchorCentre(c, h), thumbWidth))
    else None
  }

  /** Anchored at the lower bound with a non-negative scaling, the bar
      always starts at the lower bound's position and ends half a thumb
      before the thumb. */
  lemma LowestAnchorBar(thumbWidth: real, h: LegacySliderHelper.Helper, value: real)
    requires h.scaling >= 0.0 && h.range.lower <= value
    ensures var b := LinearTint(true, Lowest, thumbWidth, h, value).value;
      b.start == LegacySliderHelper.MinThumbPos(h)
      && b.start + b.width == LegacySliderHelper.SliderLocation(h, value) - thumbWidth / 2.0
  {
    assert (value - h.range.lower) * h.scaling >= 0.0;
  }
}

=== FILE: track_layout.dfy ===
/** `TrackLayout`: the layout that spreads track marks (or labels) evenly
    along a track, keeping half of the horizontal padding at either end and
    pulling the end marks back inside the proposed width. Subviews are
    represented by their ideal sizes; the placement is returned instead of
    performed. */
module TrackLayout {
  import opened Common
  import MarkSequence
  import SliderHelper

  datatype Size = Size(width: real, height: real)

  /** The unit points a placement can be anchored on. */
  datatype Alignment =
    | TopLeading | Top | TopTrailing
    | Leading | Center | Trailing
    | BottomLeading | Bottom | BottomTrailing

  /** `Double.greatestFiniteMagnitude`, the seed of the height reduction. */
  const GreatestFinite: real := 179769313486231570000000000000000000000000000000000000000000000000000000000000000000000000000000000000000000000000000000000000000000000000000000000000000000000000000000000000000000000000000000000000000000000000000000000000000000000000000000000000000000000000000000000000000000000000000000000000000000000000.0

  /** `reduce(seed) { min(next, height) }` over the subviews. */
  function MinHeight(seed: real, subviews: seq<Size>): (r: real)
    ensures r <= seed
    ensures forall i :: 0 <= i < |subviews| ==> r <= subviews[i].height
    ensures r == seed || exists i :: 0 <= i < |subviews| && r == subviews[i].height
  {
    if |subviews| == 0 then seed
    else
      var last := subviews[|subviews| - 1];
      var r := MinHeight(seed, subviews[..|subviews| - 1]);
      assert forall i :: 0 <= i < |subviews| - 1 ==> subviews[..|subviews| - 1][i] == subviews[i];
      Min(r, last.height)
  }

  /** Whenever some subview is no taller than the seed (always, for finite
      heights), the reduction is the smallest subview height. */
  lemma MinHeightIsSmallest(subviews: seq<Size>, k: nat)
    requires k < |subviews| && subviews[k].height <= GreatestFinite
    ensures exists i :: 0 <= i < |subviews| && MinHeight(GreatestFinite, subviews) == subviews[i].height
  {
  }

  /** `sizeThatFits`: zero for fewer than two subviews; otherwise the proposed
      width less the padding plus, at each end, the smaller of half the
      padding and half that end's mark, and the smallest height plus `vpad`. */
  function SizeThatFits(proposalWidth: Option<real>, hpad: real, vpad: real, subviews: seq<Size>): (s: Size)
    ensures |subviews| < 2 ==> s == Size(0.0, 0.0)
    ensures |subviews| >= 2 ==>
      var pw := if proposalWidth.Some? then proposalWidth.value else 0.0;
      && s.width == pw - hpad + Min(hpad / 2.0, subviews[0].width / 2.0)
                             + Min(hpad / 2.0, subviews[|subviews| - 1].width / 2.0)
      && s.height - vpad == MinHeight(GreatestFinite, subviews)
  {
    if |subviews| < 2 then Size(0.0, 0.0)
    else
      var pw := if proposalWidth.Some? then proposalWidth.value else 0.0;
      var width := pw - hpad;
      var height := MinHeight(GreatestFinite, subviews);
      var width' := width + Min(hpad * 0.5, subviews[0].width * 0.5)
                          + Min(hpad * 0.5, subviews[|subviews| - 1].width * 0.5);
      Size(width', height + vpad)
  }

  /** When the end marks are at least as wide as the padding, the layout asks
      for exactly the proposed width; narrower end marks make it narrower. */
  lemma SizeWithinProposal(pw: real, hpad: real, vpad: real, subviews: seq<Size>)
    requires |subviews| >= 2 && hpad >= 0.0
    ensures SizeThatFits(Some(pw), hpad, vpad, subviews).width <= pw
    ensures subviews[0].width >= hpad && subviews[|subviews| - 1].width >= hpad ==>
      SizeThatFits(Some(pw), hpad, vpad, subviews).width == pw
  {
  }

  /** The y coordinate: the top edge for top alignments, the bottom edge for
      bottom alignments, the middle otherwise. */
  function AlignedY(bounds: Rect, a: Alignment): (y: real)
    ensures a in {TopLeading, Top, TopTrailing} ==> y == bounds.minY
    ensures a in {BottomLeading, Bottom, BottomTrailing} ==> y == bounds.MaxY()
    ensures a in {Leading, Center, Trailing} ==> y == bounds.MidY()
  {
    if a in {TopLeading, Top, TopTrailing} then bounds.minY
    else if a in {BottomLeading, Bottom, BottomTrailing} then bounds.MaxY()
    else bounds.MidY()
  }

  /** The spacing between mark centres: the padded width over the gaps. */
  function Increment(pw: real, hpad: real, count: nat): real
    requires count >= 2
  {
    (pw - hpad) / (count - 1) as real
  }

  /** Where the `index`-th mark would go before clamping: its centre at half
      the padding plus `index` increments. */
  function RawX(minX: real, pw: real, hpad: real, count: nat, index: nat, width: real): real
    requires count >= 2
  {
    minX + hpad * 0.5 + Increment(pw, hpad, count) * index as real - width * 0.5
  }

  /** The x at which the `index`-th mark is placed: pushed right to the left
      edge, or left so that it ends at the proposed width. The source places
      the subview with its anchor at this x; every caller uses a leading
      alignment, so it is the mark's leading edge. */
  function PlacedX(minX: real, pw: real, hpad: real, count: nat, index: nat, width: real): (x: real)
    requires count >= 2
    ensures width <= pw ==> minX <= x && x + width <= minX + pw
    ensures minX <= RawX(minX, pw, hpad, count, index, width) <= minX + pw - width ==>
      x == RawX(minX, pw, hpad, count, index, width)
    ensures x == RawX(minX, pw, hpad, count, index, width) || x == minX || x + width == minX + pw
  {
    var x := RawX(minX, pw, hpad, count, index, width);
    if x < minX then minX
    else if x + width > minX + pw then minX + pw - width
    else x
  }

  /** A placement: the anchor x of every subview (its leading edge under the
      leading alignments the callers use) and the common y. */
  datatype Placement = Placement(xs: seq<real>, y: real)

  /** `placeSubviews`: nothing for fewer than two subviews, otherwise every
      subview at its clamped x and the aligned y. */
  method PlaceSubviews(bounds: Rect, proposalWidth: Option<real>, hpad: real, alignment: Alignment,
                       subviews: seq<Size>)
    returns (p: Placement)
    ensures |subviews| < 2 ==> p.xs == []
    ensures |subviews| >= 2 ==>
      var pw := if proposalWidth.Some? then proposalWidth.value else 0.0;
      && |p.xs| == |subviews|
      && p.y == AlignedY(bounds, alignment)
      && forall i :: 0 <= i < |subviews| ==>
           p.xs[i] == PlacedX(bounds.minX, pw, hpad, |subviews|, i, subviews[i].width)
  {
    if |subviews| < 2 {
      return Placement([], AlignedY(bounds, alignment));
    }
    var pw := if proposalWidth.Some? then proposalWidth.value else 0.0;
    var minX := bounds.minX;
    var y := AlignedY(bounds, alignment);
    var xs: seq<real> := [];
    var index := 0;
    while index < |subviews|
      invariant 0 <= index <= |subviews| && |xs| == index
      invariant forall i :: 0 <= i < index ==>
        xs[i] == PlacedX(minX, pw, hpad, |subviews|, i, subviews[i].width)
    {
      var w := subviews[index].width;
      var x := RawX(minX, pw, hpad, |subviews|, index, w);
      if x < minX {
        x := minX;
      } else if x + w > bounds.minX + pw {
        x := bounds.minX + pw - w;
      }
      assert x == PlacedX(minX, pw, hpad, |subviews|, index, w);
      xs := xs + [x];
      index := index + 1;
    }
    p := Placement(xs, y);
  }

  /** The layout agrees with the slider: when a linear track laid out in a
      frame is proposed the frame's width and padded by the helper's buffer,
      and the marks divide the range evenly, the unclamped centre of every
      mark sits exactly at the track position of that mark's value. */
  lemma MarkCentresMatchTrack(h: SliderHelper.Helper, rect: Rect, count: nat, i: nat)
    requires SliderHelper.Valid(h) && h.style.orientation == SliderHelper.Linear
    requires count >= 2 && i < count
    requires rect.width >= Max(h.style.thumbWidth, h.style.trackMarkWidth)
    ensures var g := SliderHelper.SetTrackSize(h, rect);
      var interval := h.range.Span() / (count - 1) as real;
      RawX(0.0, rect.width, g.trackBuffer, count, i, 0.0)
        == SliderHelper.SliderPosition(g, h.range.lower + i as real * interval)
  {
    var g := SliderHelper.SetTrackSize(h, rect);
    var n := (count - 1) as real;
    var interval := h.range.Span() / n;
    var len := rect.width - g.trackBuffer;
    assert g.trackLength == len;
    assert g.scaling == len / h.range.Span();
    calc {
      SliderHelper.SliderPosition(g, h.range.lower + i as real * interval);
      g.trackBuffer * 0.5 + (i as real * interval) * g.scaling;
      { assert (i as real * interval) * g.scaling == i as real * (interval * g.scaling);
        assert interval * g.scaling == len / n; }
      g.trackBuffer * 0.5 + i as real * (len / n);
      g.trackBuffer * 0.5 + len / n * i as real;
      RawX(0.0, rect.width, g.trackBuffer, count, i, 0.0);
    }
  }
}

=== FILE: track_marks.dfy ===
/** The arithmetic behind the track-mark views of all three revisions: which
    marks are highlighted, how far a mark is from the thumb in units of the
    growth zone, and the cubic that grows marks near the thumb while it is
    dragged. */
module MarkGrowth {
  import opened Common
  import MarkSequence

  /** The state a mark is drawn in. */
  datatype Status = Active | Inactive

  /** `getNormalisedXvalue`: with a zone of `span * percent` either side of
      the value, a mark in the zone gets `1 - distance / zone` (1 at the value,
      0 at the zone's edges) and a mark outside it gets nothing. A zero zone
      divides 0 by 0 at the value itself, so that one input is excluded. */
  function NormalisedX(span: real, percent: real, value: real, mark: real): (r: Option<real>)
    requires span * percent == 0.0 ==> mark != value
    ensures r.Some? <==> Abs(mark - value) <= span * percent
    ensures r.Some? ==> span * percent > 0.0
    ensures r.Some? ==> 0.0 <= r.value <= 1.0
    ensures r.Some? ==> (r.value == 1.0 <==> mark == value)
    ensures r.Some? ==> (r.value == 0.0 <==> Abs(mark - value) == span * percent)
    ensures r.Some? ==> r.value * (span * percent) == span * percent - Abs(mark - value)
  {
    var raisedRange := span * percent;
    if !(value - raisedRange <= mark && mark <= value + raisedRange) then None
    else
      Fraction(Abs(mark - value), raisedRange);
      Some(1.0 - Abs(mark - value) / raisedRange)
  }

  /** A distance within the zone is a fraction of it in [0, 1]. */
  lemma Fraction(d: real, z: real)
    requires z > 0.0 && 0.0 <= d <= z
    ensures d / z * z == d
    ensures 0.0 <= d / z <= 1.0
    ensures d / z == 1.0 <==> d == z
    ensures d / z == 0.0 <==> d == 0.0
  {
    var q := d / z;
    assert q * z == d;
    if q > 1.0 {
      MarkSequence.MulStrict(1.0, q, z);
    }
    if q < 0.0 {
      MarkSequence.MulStrict(q, 0.0, z);
    }
  }

  /** The earliest revision returns the sentinel -1 instead of nothing. */
  function NormalisedXOrSentinel(span: real, percent: real, value: real, mark: real): real
    requires span * percent == 0.0 ==> mark != value
  {
    var raisedRange := span * percent;
    if !(value - raisedRange <= mark && mark <= value + raisedRange) then -1.0
    else 1.0 - Abs(mark - value) / raisedRange
  }

  /** The sentinel encoding carries the same information: a non-negative
      result is exactly a mark in the zone, with the same value. */
  lemma SentinelAgrees(span: real, percent: real, value: real, mark: real)
    requires span * percent == 0.0 ==> mark != value
    ensures var x := NormalisedXOrSentinel(span, percent, value, mark);
      var o := NormalisedX(span, percent, value, mark);
      (x >= 0.0 <==> o.Some?) && (o.Some? ==> x == o.value) && (o.None? ==> x == -1.0)
  {
  }

  /** The mark height curve `c * (growth - 1) * x^3 + c`: the cubic through
      the resting height at the zone's edge (x = 0) and `growth` times it at
      the thumb (x = 1). */
  function Curve(c: real, growth: real, x: real): real
  {
    c * (growth - 1.0) * (x * x * x) + c
  }

  lemma CubeMonotone(x: real, y: real)
    requires 0.0 <= x <= y
    ensures x * x * x <= y * y * y
  {
    MarkSequence.MulMonotone(x, y, x);
    MarkSequence.MulMonotone(x, y, y);
    assert x * x <= y * y;
    MarkSequence.MulMonotone(x * x, y * y, x);
    MarkSequence.MulMonotone(x, y, y * y);
  }

  lemma CubeUnit(x: real)
    requires 0.0 <= x <= 1.0
    ensures 0.0 <= x * x * x <= 1.0
    ensures x * x * x == 1.0 <==> x == 1.0
  {
    CubeMonotone(0.0, x);
    CubeMonotone(x, 1.0);
    if x < 1.0 {
      MarkSequence.MulMonotone(x, 1.0, x);
      MarkSequence.MulMonotone(x * x, 1.0, x);
      MarkSequence.MulStrict(x, 1.0, 1.0);
      assert x * x * x <= x;
    }
  }

  /** For a non-negative height and a growth of at least 1 the curve never
      shrinks a mark and rises towards the thumb. */
  lemma CurveMonotone(c: real, growth: real, x: real, y: real)
    requires c >= 0.0 && growth >= 1.0
    requires 0.0 <= x <= y <= 1.0
    ensures c <= Curve(c, growth, x) <= Curve(c, growth, y) <= growth * c
  {
    CubeMonotone(x, y);
    CubeUnit(x);
    CubeUnit(y);
    var a := c * (growth - 1.0);
    MarkSequence.MulMonotone(0.0, growth - 1.0, c);
    var cx, cy := x * x * x, y * y * y;
    assert Curve(c, growth, x) == a * cx + c;
    assert Curve(c, growth, y) == a * cy + c;
    MarkSequence.MulMonotone(0.0, cx, a);
    MarkSequence.MulMonotone(cx, cy, a);
    MarkSequence.MulMonotone(cy, 1.0, a);
    assert a * cx <= a * cy <= a;
  }

  /** The full `growth` is reached only at the thumb itself (when the mark
      actually grows). */
  lemma CurvePeakOnlyAtThumb(c: real, growth: real, x: real)
    requires c > 0.0 && growth > 1.0 && 0.0 <= x <= 1.0
    ensures Curve(c, growth, x) == growth * c <==> x == 1.0
  {
    CubeUnit(x);
    var a := c * (growth - 1.0);
    assert a > 0.0;
    if x < 1.0 {
      assert x * x * x < 1.0;
      MarkSequence.MulStrict(x * x * x, 1.0, a);
    }
  }

  lemma CurveBounds(c: real, growth: real, x: real)
    requires 0.0 <= x <= 1.0
    ensures c >= 0.0 && growth >= 1.0 ==> c <= Curve(c, growth, x) <= growth * c
    ensures c > 0.0 && growth > 1.0 ==> (Curve(c, growth, x) == growth * c <==> x == 1.0)
  {
    if c >= 0.0 && growth >= 1.0 { CurveMonotone(c, growth, x, 1.0); }
    if c > 0.0 && growth > 1.0 { CurvePeakOnlyAtThumb(c, growth, x); }
  }

  /** The height of a grown mark: the curve at the normalised distance. */
  function GrownHeight(c: real, growth: real, span: real, percent: real, value: real, mark: real): (r: Option<real>)
    requires span * percent == 0.0 ==> mark != value
    ensures r.Some? <==> NormalisedX(span, percent, value, mark).Some?
    ensures r.Some? && c >= 0.0 && growth >= 1.0 ==> c <= r.value <= growth * c
    ensures r.Some? && c > 0.0 && growth > 1.0 ==> (r.value == growth * c <==> mark == value)
  {
    match NormalisedX(span, percent, value, mark)
    case None => None
    case Some(x) =>
      CurveBounds(c, growth, x);
      Some(Curve(c, growth, x))
  }

  lemma GrowthRoomNonNegative(c: real, growth: real)
    ensures c >= 0.0 && growth >= 1.0 ==> c * (growth - 1.0) >= 0.0
  {
    if c >= 0.0 && growth >= 1.0 {
      MarkSequence.MulMonotone(0.0, growth - 1.0, c);
    }
  }

  /** The vertical room a track of marks reserves for growth, and its vertical
      alignment. */
  datatype MarkFrame = MarkFrame(hpad: real, vpad: real, bottomAligned: bool)

  /** `vpad = markHeight * (growth - 1)` with a growth of 1 when marks are not
      dynamic; dynamic marks are aligned to the bottom so they grow upwards. */
  function Frame(hpad: real, markHeight: real, dynamic: Option<(real, real)>): (f: MarkFrame)
    ensures f.hpad == hpad
    ensures f.bottomAligned <==> dynamic.Some?
    ensures dynamic.None? ==> f.vpad == 0.0
    ensures dynamic.Some? ==> f.vpad + markHeight == markHeight * dynamic.value.1
    ensures dynamic.Some? && markHeight >= 0.0 && dynamic.value.1 >= 1.0 ==> f.vpad >= 0.0
  {
    var growth := if dynamic.Some? then dynamic.value.1 else 1.0;
    GrowthRoomNonNegative(markHeight, growth);
    MarkFrame(hpad, markHeight * (growth - 1.0), dynamic.Some?)
  }

  /** The reserved room is exactly what the tallest grown mark needs. */
  lemma FrameFitsTallestMark(hpad: real, c: real, growth: real, percent: real, span: real, value: real, mark: real)
    requires c >= 0.0 && growth >= 1.0
    requires span * percent == 0.0 ==> mark != value
    ensures var g := GrownHeight(c, growth, span, percent, value, mark);
      g.Some? ==> g.value <= c + Frame(hpad, c, Some((percent, growth))).vpad
  {
  }
}

/** `TrackMarks` of the current revision (`1.SliderViews/TrackMarks`). */
module TrackMarks {
  import opened Common
  import opened MarkGrowth
  import SliderHelper

  /** What the view reads: the helper and the displayed value. */
  predicate HighlightReady(h: SliderHelper.Helper, value: real)
  {
    SliderHelper.TintedTrackMarks in h.style.indicators ==>
      HighlightDefined(h.style.tintCentredOn, h.range, value)
  }

  /** `shouldHighlight`: marks are tinted only with the tinted-marks
      indicator, and then exactly those in the anchored range. */
  function ShouldHighlight(h: SliderHelper.Helper, value: real, mark: real): (s: Status)
    requires HighlightReady(h, value)
    ensures s == Active <==>
      SliderHelper.TintedTrackMarks in h.style.indicators
      && InHighlight(h.style.tintCentredOn, h.range, value, mark)
  {
    if SliderHelper.TintedTrackMarks !in h.style.indicators then Inactive
    else if InHighlight(h.style.tintCentredOn, h.range, value, mark) then Active
    else Inactive
  }

  /** The growth zone of the current marks. */
  function Zone(h: SliderHelper.Helper): Option<(real, real)>
  {
    SliderHelper.DynamicTrackMarks(h.style)
  }

  /** The guard chain of `barHeight` can divide 0 by 0 only when the zone is
      empty and the mark sits on the value. */
  predicate BarHeightReady(h: SliderHelper.Helper, value: real, mark: real)
  {
    && HighlightReady(h, value)
    && (h.isDragging && ShouldHighlight(h, value, mark) == Active && Zone(h).Some?
        ==> (h.range.Span() * Zone(h).value.0 == 0.0 ==> mark != value))
  }

  /** `barHeight`: the resting mark height unless a drag is in progress, the
      mark is highlighted, marks are dynamic and the mark is in the zone; then
      the grown height. */
  function BarHeight(h: SliderHelper.Helper, value: real, mark: real): (r: real)
    requires BarHeightReady(h, value, mark)
    ensures var grows := h.isDragging && ShouldHighlight(h, value, mark) == Active && Zone(h).Some?
        && NormalisedX(h.range.Span(), Zone(h).value.0, value, mark).Some?;
      && (!grows ==> r == h.style.trackMarkHeight)
      && (grows ==> r == Curve(h.style.trackMarkHeight, Zone(h).value.1,
                               NormalisedX(h.range.Span(), Zone(h).value.0, value, mark).value))
    ensures h.style.trackMarkHeight >= 0.0 && (Zone(h).Some? ==> Zone(h).value.1 >= 1.0) ==>
      h.style.trackMarkHeight <= r <= h.style.trackMarkHeight + Frame(0.0, h.style.trackMarkHeight, Zone(h)).vpad
  {
    var c := h.style.trackMarkHeight;
    if !h.isDragging || ShouldHighlight(h, value, mark) != Active || Zone(h).None? then c
    else
      var (percent, growth) := Zone(h).value;
      match GrownHeight(c, growth, h.range.Span(), percent, value, mark)
      case None => c
      case Some(y) => y
  }

  /** At rest every mark has the same height. */
  lemma RestingMarksAreUniform(h: SliderHelper.Helper, value: real, m1: real, m2: real)
    requires !h.isDragging
    requires BarHeightReady(h, value, m1) && BarHeightReady(h, value, m2)
    ensures BarHeight(h, value, m1) == BarHeight(h, value, m2) == h.style.trackMarkHeight
  {
  }

  /** While dragging with tinted dynamic marks, the mark under the thumb is
      the one drawn at full growth. */
  lemma MarkUnderThumbGrowsFully(h: SliderHelper.Helper, value: real)
    requires h.isDragging && SliderHelper.TintedTrackMarks in h.style.indicators
    requires h.style.tintCentredOn.Value? || (h.style.tintCentredOn.Lowest? && h.range.lower <= value)
    requires Zone(h).Some? && h.range.Span() * Zone(h).value.0 > 0.0
    ensures BarHeightReady(h, value, value)
    ensures BarHeight(h, value, value) == Zone(h).value.1 * h.style.trackMarkHeight
  {
    HighlightIncludesValue(h.style.tintCentredOn, h.range, value);
  }

  /** The mark track is laid out with the helper's buffer as horizontal
      padding and room above for growth. */
  function Layout(h: SliderHelper.Helper): (f: MarkFrame)
    ensures f.hpad == h.trackBuffer
    ensures f.bottomAligned <==> h.style.trackMarkStyle.DynamicSizing?
    ensures h.style.trackMarkStyle.Regular? ==> f.vpad == 0.0
  {
    Frame(h.trackBuffer, h.style.trackMarkHeight, Zone(h))
  }
}

/** `TrackMarks` of the `1.SliderViews` revision, reading the `Styles` style
    record and the earlier helper. */
module LegacyTrackMarks {
  import opened Common
  import opened MarkGrowth
  import LegacySliderStyle
  import LegacySliderHelper
  import Indicators
  import TrackLayout

  predicate HighlightReady(s: LegacySliderStyle.Style, range: Range, value: real)
  {
    Indicators.ContainsTrackMarks(s.indicators) ==> HighlightDefined(s.tintCentredOn, range, value)
  }

  /** `shouldHighlight`: only with a `trackMarks` indicator present, and then
      exactly the marks in the anchored range. */
  function ShouldHighlight(s: LegacySliderStyle.Style, range: Range, value: real, mark: real): (b: bool)
    requires HighlightReady(s, range, value)
    ensures b <==>
      (exists i :: 0 <= i < |s.indicators| && s.indicators[i].TrackMarks?)
      && InHighlight(s.tintCentredOn, range, value, mark)
  {
    Indicators.ContainsTrackMarks(s.indicators) && InHighlight(s.tintCentredOn, range, value, mark)
  }

  predicate BarHeightReady(s: LegacySliderStyle.Style, range: Range, value: real, mark: real)
  {
    && HighlightReady(s, range, value)
    && (LegacySliderStyle.Dynamic(s).Some? && ShouldHighlight(s, range, value, mark)
        ==> (range.Span() * LegacySliderStyle.Dynamic(s).value.0 == 0.0 ==> mark != value))
  }

  /** `barHeight`: the guards are checked in the order drag, dynamic payload,
      highlight, zone; every failed guard gives the resting height. */
  function BarHeight(s: LegacySliderStyle.Style, range: Range, isDragging: bool, value: real, mark: real): (r: real)
    requires BarHeightReady(s, range, value, mark)
    ensures var d := LegacySliderStyle.Dynamic(s);
      var grows := isDragging && d.Some? && ShouldHighlight(s, range, value, mark)
        && NormalisedX(range.Span(), d.value.0, value, mark).Some?;
      && (!grows ==> r == LegacySliderStyle.MarkHeight(s))
      && (grows ==> r == Curve(LegacySliderStyle.MarkHeight(s), d.value.1,
                               NormalisedX(range.Span(), d.value.0, value, mark).value))
  {
    var c := LegacySliderStyle.MarkHeight(s);
    if !isDragging then c
    else match LegacySliderStyle.Dynamic(s)
      case None => c
      case Some((percent, growth)) =>
        if !ShouldHighlight(s, range, value, mark) then c
        else match GrownHeight(c, growth, range.Span(), percent, value, mark)
          case None => c
          case Some(y) => y
  }

  /** Without a `trackMarks` indicator no mark is ever highlighted or grown. */
  lemma NoIndicatorNoGrowth(s: LegacySliderStyle.Style, range: Range, isDragging: bool, value: real, mark: real)
    requires forall i :: 0 <= i < |s.indicators| ==> !s.indicators[i].TrackMarks?
    ensures HighlightReady(s, range, value) && BarHeightReady(s, range, value, mark)
    ensures !ShouldHighlight(s, range, value, mark)
    ensures BarHeight(s, range, isDragging, value, mark) == LegacySliderStyle.MarkHeight(s)
  {
  }

  /** The layout: the horizontal padding is the wider of the thumb and a mark,
      bottom alignment exactly with a `trackMarks` indicator. */
  function Layout(s: LegacySliderStyle.Style): (f: MarkFrame)
    ensures f.hpad == Max(s.thumbWidth, LegacySliderStyle.MarkWidth(s))
    ensures f.bottomAligned <==> Indicators.ContainsTrackMarks(s.indicators)
    ensures !Indicators.ContainsTrackMarks(s.indicators) ==> f.vpad == 0.0
  {
    Indicators.DynamicIffContainsTrackMarks(s.indicators);
    Frame(Max(s.thumbWidth, LegacySliderStyle.MarkWidth(s)), LegacySliderStyle.MarkHeight(s),
          LegacySliderStyle.Dynamic(s))
  }

  /** The padding of the marks equals the buffer the helper reserved, so
      when `TrackLayout` spreads `count` marks across the frame, the centres
      of the first and last marks sit exactly at the thumb's end positions. */
  lemma LayoutMatchesHelper(s: LegacySliderStyle.Style, h: LegacySliderHelper.Helper, width: real, count: nat)
    requires LegacySliderHelper.Valid(h) && count >= 2
    ensures var g := LegacySliderHelper.SetTrackLength(h, width, s.thumbWidth, LegacySliderStyle.MarkWidth(s));
      var hpad := Layout(s).hpad;
      && hpad == g.buffer
      && TrackLayout.RawX(0.0, width, hpad, count, 0, 0.0) == LegacySliderHelper.MinThumbPos(g)
      && TrackLayout.RawX(0.0, width, hpad, count, count - 1, 0.0) == LegacySliderHelper.MaxThumbPos(g)
  {
    var g := LegacySliderHelper.SetTrackLength(h, width, s.thumbWidth, LegacySliderStyle.MarkWidth(s));
    LegacySliderHelper.ThumbPositionsAfterLayout(h, width, s.thumbWidth, LegacySliderStyle.MarkWidth(s));
    var n := (count - 1) as real;
    assert TrackLayout.Increment(width, g.buffer, count) * n == width - g.buffer;
  }
}

/** `TrackMarks` of the earliest revision (at the package root). Its style
    record is not part of this model; the view reads only the fields below. */
module EarliestTrackMarks {
  import opened Common
  import opened MarkGrowth

  datatype MarkStyle = MarkStyle(
    hasTrackMarksIndicator: bool,
    dynamic: Option<(real, real)>,
    tintCentredOn: CentredOn,
    thumbWidth: real,
    trackMarkWidth: real,
    trackMarkHeight: real)

  /** `shouldHighlight`: no indicator gate in this revision. */
  function ShouldHighlight(s: MarkStyle, range: Range, value: real, mark: real): (b: bool)
    requires HighlightDefined(s.tintCentredOn, range, value)
    ensures b <==> InHighlight(s.tintCentredOn, range, value, mark)
  {
    var (start, end) := HighlightBounds(s.tintCentredOn, range, value);
    start <= mark <= end
  }

  /** `barGradient`: without the `trackMarks` indicator every mark is drawn
      active; otherwise the highlight decides. */
  function BarGradient(s: MarkStyle, range: Range, value: real, mark: real): (st: Status)
    requires s.hasTrackMarksIndicator ==> HighlightDefined(s.tintCentredOn, range, value)
    ensures st == Inactive <==>
      s.hasTrackMarksIndicator && !InHighlight(s.tintCentredOn, range, value, mark)
  {
    if !s.hasTrackMarksIndicator then Active
    else if ShouldHighlight(s, range, value, mark) then Active else Inactive
  }

  predicate BarHeightReady(s: MarkStyle, range: Range, isDragging: bool, value: real, mark: real)
  {
    isDragging ==>
      && HighlightDefined(s.tintCentredOn, range, value)
      && (ShouldHighlight(s, range, value, mark) && s.dynamic.Some?
          ==> (range.Span() * s.dynamic.value.0 == 0.0 ==> mark != value))
  }

  /** `barHeight`: the sentinel -1 (any negative result) means "outside the
      zone" and keeps the resting height. */
  function BarHeight(s: MarkStyle, range: Range, isDragging: bool, value: real, mark: real): (r: real)
    requires BarHeightReady(s, range, isDragging, value, mark)
    ensures var grows := isDragging && ShouldHighlight(s, range, value, mark) && s.dynamic.Some?
        && NormalisedX(range.Span(), s.dynamic.value.0, value, mark).Some?;
      && (!grows ==> r == s.trackMarkHeight)
      && (grows ==> r == Curve(s.trackMarkHeight, s.dynamic.value.1,
                               NormalisedX(range.Span(), s.dynamic.value.0, value, mark).value))
  {
    if !isDragging || !ShouldHighlight(s, range, value, mark) || s.dynamic.None? then s.trackMarkHeight
    else
      var (percent, growth) := s.dynamic.value;
      var x := NormalisedXOrSentinel(range.Span(), percent, value, mark);
      SentinelAgrees(range.Span(), percent, value, mark);
      if !(x >= 0.0) then s.trackMarkHeight
      else Curve(s.trackMarkHeight, growth, x)
  }

  function Layout(s: MarkStyle): (f: MarkFrame)
    ensures f.hpad == Max(s.thumbWidth, s.trackMarkWidth)
    ensures f.bottomAligned <==> s.dynamic.Some?
    ensures s.dynamic.None? ==> f.vpad == 0.0
  {
    Frame(Max(s.thumbWidth, s.trackMarkWidth), s.trackMarkHeight, s.dynamic)
  }
}
